=== FILE: README.md ===
# smollm3-openwebui installers: a Dafny model

This project models the parts of the SmolLM3 + Open WebUI installers for
Windows that decide what ends up on disk, in the user's autostart
configuration, and in the commands that are run. It proves properties of
each part.

- **Resumable downloads** (`download.dfy`, module `Download`).
  `resumable_download` and `_stream_copy` from `installers/windows.py`.
  The destination file and its `.part` staging file are two optional byte
  strings. The HEAD result (Content-Length) and the server's replies are
  inputs.
  - `Download` gives the effect of one call, phase by phase.
  - The class `Downloader` performs the same steps in place and is proved to
    agree with it.
  - `Progress` gives the percentages `_stream_copy` logs. It applies the
    rule "100, or at least 5 above the last one logged" to the byte counter
    after each 1 MiB chunk.
  - Proved properties: resumption against an honest server; the restart when
    a server ignores the Range header; the append on 206; an error on the
    first GET keeps `.part`, while an error on the plain GET after a restart
    leaves no file at all; no more than one of the two files remains; a
    second run is skipped; the logged percentages are spaced and end at 100.
  - A 416 answer is not raised as an HTTP error, although the code's comment
    says it means "assume complete". For a ranged request the staged bytes
    are always fewer than the total. So the final size check raises
    `Incomplete` and keeps `.part`, as `RangedNotSatisfiableIsIncomplete`
    proves. `Download` follows the code; `DownloadAssumingComplete` is the
    behaviour the comment describes (see Findings).
- **The autostart registrar** (`autostart.dfy`, module `Autostart`).
  `try_create_logon_task` and `create_startup_cmd`. They act on three
  name-keyed tables: the `.cmd` wrappers in the install root, the `.cmd`
  files in the Startup folder, and the scheduled tasks. Whether
  `schtasks /Create` succeeds, and whether `APPDATA` gives a Startup folder,
  are inputs. The answer is `task`, `startup` or `None`. Registering again
  with the same outcome overwrites and never duplicates. A run that fell back
  to the Startup folder followed by a run where `schtasks` succeeds leaves
  both a task and a Startup file, so the program starts twice at logon (see
  Findings).
- **Uninstall and the platform guard** (`unattended.dfy`, module
  `Unattended`). The `uninstall` routine of
  `install-smollm3-openwebui-unattended.py` derives the Startup file names
  by the registrar's own rule. The model proves that it removes exactly what
  the installer's registrations add. The guard in front of `main` refuses
  every platform except Windows with exit status 1.
- **The installer's small decisions** (`helpers.dfy`, module `Helpers`):
  - `add_to_user_path`: the stripped, non-empty `;`-separated entries, and
    the value handed to `setx`;
  - `model_exists`: the `name:tag` base-name match over `/api/tags`;
  - the readiness test of `wait_for_http`;
  - the Modelfile text, and its compare-then-write step.
- **The WSL workspace helper** (`wsl_workspace.dfy`, module `WslWorkspace`).
  `_to_wsl_path` parses the path as a Windows path. A drive path becomes
  `/mnt/<drive>/...`. `main` dispatches `start`, `resume` and `suspend`.
- **The TomEx installer** (`tomex-installer.py`; `tomex_installer.dfy`,
  module `TomexInstaller`). `write_start_script` writes the exact text of
  `start-tomex.cmd`, whose lines run both Ollama and Open WebUI inside the
  chosen distro. `main` refuses to run without a non-empty `--wsl`.

Shared pieces: `wrappers.dfy` holds `Option`. `strings.dfy` holds Python's
`lower`, `replace`, `split`, `join`, `strip` and `rstrip` on strings, with
their lemmas.

## Model

| member | source | states |
|---|---|---|
| Download.AbsorbDest | installers/windows.py:373-383 | an incomplete destination is folded into `.part`: the longer of the two survives, the existing `.part` wins a tie, and the destination is gone afterwards |
| Download.DiscardOversized | installers/windows.py:385-388 | a `.part` longer than a known total is deleted; afterwards it never exceeds the total; with no total nothing changes |
| Download.Staged | installers/windows.py:365-388 | with a known total, the staged `.part` before the request never exceeds it |
| Download.RangeStart | installers/windows.py:390-392 | a `Range` is sent exactly when the staged size k is positive, the total is truthy and k < total; it starts at k |
| Download.RequestedRange | installers/windows.py:385-392 | the range the first GET asks for is the size of the staged `.part`, positive and below the known total |
| Download.HeaderFor | installers/windows.py:390-392 | the `Range` header sent for a requested range, none without one (specification function for `ResumableDownload`) |
| Download.RangeHeader | installers/windows.py:392 | the header value is `bytes=`, then decimal digits that read back as k, then `-` |
| Download.Transfer | installers/windows.py:395-414 | the GET, case by case: an error other than 416 (or no connection) raises with `.part` untouched; 416 is swallowed; 206 appends at k (or writes fresh when k = 0); 200 with k > 0 deletes `.part` and takes the body of a second, plain GET |
| Download.Finish | installers/windows.py:416-419 | a `.part` shorter than a known total raises `Incomplete(size, total)` and stays; otherwise `.part` replaces the destination; never both files |
| Download.AlreadyComplete | installers/windows.py:366-372 | the skip test: the destination exists and the size is unknown or equals it (specification predicate) |
| Download.Download | installers/windows.py:354-420 | one call, phase by phase: skipped exactly when the destination is complete, and then nothing changes; otherwise never both files; a raised call leaves no destination |
| Download.Checkpoints | installers/windows.py:338-346 | the counter after each chunk read: there is one iff the body is non-empty, and the last is start + body length |
| Download.CheckpointsBounded | installers/windows.py:338-346 | every counter value lies above the start and at most the body length beyond it |
| Download.PctOfTotal | installers/windows.py:348 | `int(total * 100 / total)` is 100 |
| Download.CheckpointsFirst | installers/windows.py:341-346 | a non-empty body is read as one chunk of at most 1 MiB followed by the rest |
| Download.ProgressLogs | installers/windows.py:347-351 | a counter value whose percentage is 100, or at least 5 above the last one logged, is logged and becomes the last one logged |
| Download.ProgressQuiet | installers/windows.py:347-351 | any other counter value, or any value with a non-truthy total, logs nothing and leaves the last one logged alone |
| Download.Progress | installers/windows.py:347-351 | the percentages logged for a sequence of counter values: at most one per value, none without a truthy total |
| Download.ProgressKept | installers/windows.py:346-351 | one loop step preserves "logged so far, then what the remaining counters will log" |
| Download.ProgressSpaced | installers/windows.py:349-351 | every logged percentage is 100 or at least 5 above the previous one logged (the first is compared with -1) |
| Download.ProgressEndsAtHundred | installers/windows.py:348-351 | when the counter ends exactly at a truthy total, the last percentage logged is 100 |
| Download.ProgressFromCounts | installers/windows.py:347-351 | without a truthy total nothing is logged; otherwise each logged percentage is that of some counter value, and at most one per chunk |
| Download.WrittenGrows | installers/windows.py:345 | written bytes followed by the next chunk equal the longer prefix of the body |
| Download.Downloader.WriteChunk | installers/windows.py:345 | `out_file.write(b)` appends the chunk to `.part` |
| Download.Downloader.StreamCopy | installers/windows.py:337-351 | `.part` ends as its old contents followed by the whole body; the counter ends at start + body length; the logged percentages are `Progress` of the per-chunk counters from -1 |
| Download.Downloader.Stage | installers/windows.py:365-388 | skips exactly when the destination is complete (or of unknown size), leaving both files; otherwise the destination is gone and `.part` is `Staged` |
| Download.Downloader.Fetch | installers/windows.py:395-414 | the new `.part` and the failure raised are those of `Transfer` |
| Download.Downloader.ResumableDownload | installers/windows.py:354-420 | the files and the outcome are those of `Download`; the Range header sent is `HeaderFor(RequestedRange(..))` of the old files, and none on a skip |
| Download.CompleteIsSkipped | installers/windows.py:366-372 | a destination of the remote size, or of unknown size, is left alone with `.part` |
| Download.RangeIgnoredRestarts | installers/windows.py:399-406 | a 200 answer to a call with bytes staged yields exactly the second GET's body, never old bytes followed by a body |
| Download.PartialAppends | installers/windows.py:397-408 | a 206 answer keeps the staged bytes as a prefix and appends the body |
| Download.ErrorKeepsStaging | installers/windows.py:409-414 | an HTTP error other than 416, or a lost connection, on the first GET raises and keeps the staged bytes in `.part` |
| Download.RestartErrorLosesStaging | installers/windows.py:399-414 | after a 200 to a call with bytes staged, an error or lost connection on the plain GET raises with neither `.part` nor the destination left |
| Download.RangedNotSatisfiableIsIncomplete | installers/windows.py:409-417 | a 416 answer to a ranged GET is swallowed, but the call then raises `Incomplete(k, total)` with `.part` kept |
| Download.NeverBothFiles | installers/windows.py:416-419 | a call that is not skipped never leaves both the destination and `.part` |
| Download.SavedMeetsTotal | installers/windows.py:416-419 | after a normal return with a known total, a destination that exists holds at least that many bytes |
| Download.SavedWithoutDestination | installers/windows.py:399-420 | a normal return leaves no destination exactly when the first GET gets 416 with nothing staged, or a restart's plain GET gets 416 |
| Download.DownloadAssumingComplete | installers/windows.py:409-419 | the behaviour the 416 comment describes: a 416 to a ranged GET promotes `.part` to the destination; every other case is `Download` |
| Download.NotSatisfiableAcceptedAsComplete | installers/windows.py:409-419 | with the corrected 416 handling a ranged 416 saves the staged bytes as the destination and removes `.part`, where the code as written raises |
| Download.CompletePartRefetched | installers/windows.py:390-419 | a complete `.part` with no destination sends no Range, yet a 200 deletes it and the plain GET's body decides the files: a shorter body stays as `.part` (raising `Incomplete`), any other becomes the destination |
| Download.StagedResumable | installers/windows.py:365-388 | staging keeps a prefix of the artifact a prefix (an oversized file is discarded) |
| Download.HonestServerCompletes | installers/windows.py:355-360 | against a server holding the artifact (honouring ranges or not), whatever prefix is on disk, one call leaves exactly the artifact at the destination and no `.part`, or skips a complete destination |
| Download.SecondRunIsSkipped | installers/windows.py:357-372 | after a saved download, calling again with the same total changes nothing |
| Download.ResumeTransfersOnlyTheRest | installers/windows.py:390-408 | against a range-honouring server holding the artifact, a resumed call receives a 206 with exactly the total - k missing bytes, the staged bytes followed by them are the artifact, and `Download` saves the artifact whatever the second reply would have been |
| Autostart.StartupCmdName | installers/windows.py:156 | the Startup file name is the task name with each space turned into `_` and every other character kept, position by position, then `.cmd`; it has no space |
| Autostart.TaskWrapperName | installers/windows.py:169 | the install-root wrapper name is, position by position, the task name with each space turned into `_` and lower-cased, then `.cmd`; no space, no capital |
| Autostart.WrapperText | installers/windows.py:158-162 | the wrapper text starts with `@echo off` and a newline |
| Autostart.WrapperLines | installers/windows.py:158-162 | the wrapper's lines are `@echo off`, `cd /d "<workdir>"` when a directory is given, then the command, each ended by a newline |
| Autostart.CreateStartupCmd | installers/windows.py:152-164 | with no Startup folder nothing changes and the answer is `None`; otherwise exactly the derived Startup file is (over)written with the wrapper text and named |
| Autostart.Register | installers/windows.py:167-186 | the install-root wrapper is always written; the answer is `task` iff schtasks succeeds (then the task is added), `startup` iff it fails with a Startup folder, `None` otherwise; each table otherwise unchanged |
| Autostart.ReRegisterOverwrites | installers/windows.py:168-186 | registering the same task again with the same outcome changes nothing: /F and the fixed names overwrite |
| Autostart.RegisterAddsAtMostOne | installers/windows.py:167-186 | one registration adds at most one key to each table |
| Autostart.FallbackThenTaskCoexist | installers/windows.py:167-186 | a Startup fallback followed by a successful `schtasks` run leaves both the task and the Startup file |
| Autostart.RegisterExclusive | installers/windows.py:167-186 | the corrected registration: same answer and wrappers as `Register`, and it removes the other mechanism's entry |
| Autostart.ExclusiveOneMechanism | installers/windows.py:167-186 | after the corrected registration the name is never both a task and a Startup file, and the mechanism answered is present |
| Autostart.Registrar.CreateStartup | installers/windows.py:152-164 | in place: the Startup table and the answer are those of `CreateStartupCmd` |
| Autostart.Registrar.TryCreateLogonTask | installers/windows.py:167-186 | in place: the tables and the answer are those of `Register` |
| Unattended.StartupFiles | install-smollm3-openwebui-unattended.py:544-545 | the Startup files `uninstall` considers are exactly the names derived from its list |
| Unattended.RegisterAll | install-smollm3-openwebui-unattended.py:362-514 | the installer's run of registrations in order: no wrapper, Startup file or task is ever removed |
| Unattended.RemoveAutostart | install-smollm3-openwebui-unattended.py:534-567 | the listed tasks are gone; with a Startup folder the derived Startup files are gone; the install root is emptied; every other task and file is kept with its content |
| Unattended.RemoveAfterRegister | install-smollm3-openwebui-unattended.py:534-551 | uninstalling after one registration under a listed name equals uninstalling without it |
| Unattended.UninstallUndoesInstall | install-smollm3-openwebui-unattended.py:530-567 | after any run of registrations under the installer's names, whatever schtasks did, uninstall leaves the same tables as without them |
| Unattended.RemoveOneMore | install-smollm3-openwebui-unattended.py:544-551 | one step of the Startup-file loop removes one more derived file |
| Unattended.RemoveTaskOneMore | install-smollm3-openwebui-unattended.py:535-539 | one step of the task loop removes one more listed task |
| Unattended.DeleteTasks | install-smollm3-openwebui-unattended.py:534-539 | in place: afterwards exactly the listed tasks are gone from the task table |
| Unattended.DeleteStartupFiles | install-smollm3-openwebui-unattended.py:541-551 | in place: afterwards exactly the Startup files derived from the names are gone |
| Unattended.Uninstall | install-smollm3-openwebui-unattended.py:530-567 | in place: the registrar's tables end as `RemoveAutostart` says |
| Unattended.EntryPoint | install-smollm3-openwebui-unattended.py:607-614 | refuses (message, exit 1) iff the lower-cased platform is not `windows`; uninstalls iff on Windows with `--uninstall` in the arguments |
| Unattended.LinuxRefused | install-smollm3-openwebui-unattended.py:608-610 | on `Linux` the script exits 1 with the Windows 11 message, whatever the arguments |
| Unattended.WindowsAccepted | install-smollm3-openwebui-unattended.py:608-614 | `Windows` passes the guard |
| Helpers.StripAll | installers/windows.py:425 | every piece stripped, in order |
| Helpers.Listed | installers/windows.py:425-426 | a directory is on the PATH iff it is non-empty and some `;`-piece strips to it (specification predicate) |
| Helpers.PathEntries | installers/windows.py:425 | the entries list holds exactly the listed directories |
| Helpers.NonEmpty | installers/windows.py:425 | the filter `if p.strip()` keeps exactly the non-empty pieces |
| Helpers.NonEmptyAppend | installers/windows.py:425 | filtering a concatenation filters each half, in order |
| Helpers.EntriesMember | installers/windows.py:425 | a string is a PATH entry iff it is non-empty and some piece strips to it |
| Helpers.EntriesAppend | installers/windows.py:425 | the entries of concatenated pieces are the entries of each, in order |
| Helpers.NewUserPath | installers/windows.py:423-430 | no change iff the directory is one of the stripped non-empty entries; otherwise `setx` gets the current PATH, `;` and the directory |
| Helpers.AddedDirIsListed | installers/windows.py:425-430 | after appending a plain directory, it is the last entry and a second call asks for no change |
| Helpers.UnstrippedDirAppended | installers/windows.py:425-426 | a directory with surrounding white space never matches an entry, so it is always appended |
| Helpers.BaseName | installers/windows.py:480 | `split(":")[0]` is the prefix before the first `:` (or all), with no `:` in it |
| Helpers.BaseNameMatches | installers/windows.py:480 | for a name without `:`, a listed name matches iff it is the name or the name, `:` and a tag |
| Helpers.Matches | installers/windows.py:480 | an entry matches when its base name is the model name; a record without a name reads as `""`; a malformed entry never matches (specification predicate) |
| Helpers.Scan | installers/windows.py:479-483 | the loop over the listed models, stopping at a match or at an entry that raises (its contract is `ScanFinds`) |
| Helpers.ScanFinds | installers/windows.py:479-483 | the scan finds the model iff some entry matches and no entry before it raises |
| Helpers.ModelExists | installers/windows.py:474-484 | a failed request answers false; otherwise true iff some listed entry matches and no entry before it raises |
| Helpers.TaggedModelFound | installers/windows.py:479-481 | `smollm3-local:latest` counts for `smollm3-local` |
| Helpers.ReadyAsWritten | installers/windows.py:201-208 | as written, ready iff the service answered with 2xx (urllib raises for the rest) |
| Helpers.Ready | installers/windows.py:204 | ready iff the service answered with 200 <= status < 500 |
| Helpers.ReadyDiffers | installers/windows.py:201-208 | the two agree except on 3xx and 4xx answers, which only `Ready` accepts |
| Helpers.NotFoundNeverReady | installers/windows.py:203-208 | a 404 answer is never ready as written, though the status test accepts it |
| Helpers.NumThread | installers/windows.py:47 | `max(4, cpu_count or 8)`: at least 4; an unknown or zero count gives 8 |
| Helpers.ModelfileLines | installers/windows.py:497-502 | the five Modelfile lines (specification function; see `ModelfileLinesOneLine`) |
| Helpers.DesiredModelfile | installers/windows.py:497-504 | the lines joined by newlines with a final empty piece (specification function; see `DesiredModelfileLines`) |
| Helpers.ModelfileLinesOneLine | installers/windows.py:497-502 | no Modelfile line holds a line break |
| Helpers.DesiredModelfileLines | installers/windows.py:497-504 | the desired text splits into the five Modelfile lines and a final empty piece, so each line ends with a newline |
| Helpers.NeedsWrite | installers/windows.py:505-511 | write iff the file does not read back as exactly the desired text (missing or unreadable files are written) |
| Helpers.ModelStore.EnsureModelfile | installers/windows.py:505-513 | afterwards the file holds the desired text; it was written iff it did not already; otherwise untouched |
| WslWorkspace.Keep | scripts/wsl_workspace.py:26 | the kept components are non-empty, not `.`, taken from the pieces, and every non-empty piece other than `.` is kept |
| WslWorkspace.KeepAppend | scripts/wsl_workspace.py:26 | keeping works piece by piece in order: it distributes over concatenation |
| WslWorkspace.Components | scripts/wsl_workspace.py:26 | components hold neither `\` nor `/` and are neither empty nor `.` |
| WslWorkspace.ParseWindowsPath | scripts/wsl_workspace.py:26-27 | a drive is found iff the path does not start with a separator and its second character is `:`, and it is then the first two characters; rooted iff a separator follows the drive (or starts a driveless path); the parts are the components of the text after the drive (of the whole text when there is none) |
| WslWorkspace.Str | scripts/wsl_workspace.py:31 | the text form is never empty; a rooted path without a drive is `\` followed by its components joined by `\` |
| WslWorkspace.MountPoint | scripts/wsl_workspace.py:28-30 | `/mnt/` followed by the drive without its trailing `:`, lower-cased: for a drive `X:` exactly `/mnt/x`; never a capital letter or a final `:` after the prefix |
| WslWorkspace.ToWslPathAsWritten | scripts/wsl_workspace.py:20-31 | `_to_wsl_path` as written: a drive path starts with the drive's mount point and `/`; a driveless path comes back with no `/` at all |
| WslWorkspace.ToWslPath | scripts/wsl_workspace.py:20-31 | the corrected conversion: a path without a drive is returned unchanged; a drive path converts as written |
| WslWorkspace.ComponentsOfJoin | scripts/wsl_workspace.py:26-29 | plain components joined by `\` parse back into themselves |
| WslWorkspace.ComponentsOfRootedJoin | scripts/wsl_workspace.py:26 | pieces without separators written after a root `\` read back as the kept pieces: empty and `.` pieces vanish, the others stay in order |
| WslWorkspace.DrivePathMapsToMount | scripts/wsl_workspace.py:26-30 | `X:\` followed by separator-free pieces joined by `\` becomes `/mnt/x/` followed by the kept pieces joined by `/`: `X:\a\\.\b` and `X:\a\b` both give `/mnt/x/a/b` |
| WslWorkspace.PosixPathMangled | scripts/wsl_workspace.py:23-31 | as written, `/a/b` comes back as `\a\b`, not unchanged; the corrected conversion returns it unchanged |
| WslWorkspace.HomePathMangled | scripts/wsl_workspace.py:31 | as written, `/home` comes back as `\home` |
| WslWorkspace.ParseAction | scripts/wsl_workspace.py:70-74 | an action is accepted iff it is `start`, `resume` or `suspend` |
| WslWorkspace.Plan | scripts/wsl_workspace.py:35-91 | `suspend` runs only `wsl --terminate <distro>`; `start`/`resume` run two six-word `wsl -d <distro> bash -lc` commands: the setup command, then `cd '<repository in WSL form>' && exec bash` |
| WslWorkspace.StartIsResume | scripts/wsl_workspace.py:88-89 | `start` and `resume` run the same commands |
| WslWorkspace.OnlySuspendTerminates | scripts/wsl_workspace.py:88-91 | some command terminates the distro iff the action is `suspend` |
| TomexInstaller.StartScript | tomex-installer.py:23-33 | the script starts with `@echo off` and a newline |
| TomexInstaller.OllamaLineShape | tomex-installer.py:26-28 | the Ollama line is one line and runs `wsl -d <distro>` after `start ""` |
| TomexInstaller.WebUiLineShape | tomex-installer.py:30-33 | the Open WebUI line is one line and starts with `wsl -d <distro>` |
| TomexInstaller.StartScriptShape | tomex-installer.py:23-33 | for a one-line distro name the script is exactly three newline-ended lines: `@echo off`, then two lines that both run in `wsl -d <distro>` |
| TomexInstaller.Store | tomex-installer.py:20-23 | `base` exists afterwards; `base/start-tomex.cmd` holds the text; no other file changes |
| TomexInstaller.WriteStartScript | tomex-installer.py:18-35 | returns `base/start-tomex.cmd`, which then holds the start script for the distro; `base` is the only directory added; every other file keeps its content |
| TomexInstaller.RewriteIsIdempotent | tomex-installer.py:18-35 | writing the script twice leaves the disk as one write does |
| TomexInstaller.Install | tomex-installer.py:47-51 | exits with `--wsl <distro> is required` and no change iff `--wsl` is missing or empty; otherwise the start script for that distro is at `base/start-tomex.cmd`, `base` is the only directory added, and every other file keeps its content |
| TomexInstaller.Home.WriteScript | tomex-installer.py:18-35 | in place: the disk and the returned path are those of `WriteStartScript` |
| TomexInstaller.Home.Run | tomex-installer.py:47-51 | in place: the disk and the outcome are those of `Install` |

## Left out

- Logging, the progress message text and the `MB` figures of `_stream_copy` are not modelled. Only which percentages are logged is.
- `int(read * 100 / total)` goes through a float in Python. The model uses exact integer division, which can differ only for totals far beyond any real download.
- Download.Downloader.StreamCopy: assumes every read returns a full 1 MiB chunk except the last. A short read changes only the counter values at which progress is checked.
- A transfer interrupted mid-stream (an exception from `read` or `write`) is not modelled. Nor are a failing `unlink`, `rename` or `os.replace`, or a HEAD answer that disagrees with the body.
- `head_content_length`, `urlopen`, `schtasks /Create`, `setx` and `platform.system()` are inputs, not calls. A `setx` failure, which is only logged, is not modelled.
- `wait_for_http`'s clock, its 180-second deadline and its two-second sleeps are left out. Only the status test of one probe is modelled.
- `_ensure_minimal_env`, `start_workspace` and `suspend_workspace` are modelled only as the commands they run (`Plan`), not as processes.
- Unattended.Uninstall: `schtasks /Delete`, the `unlink` calls and `rmtree` are taken to succeed, and the install root is modelled as emptied.
- The uninstall shortcut (`create_uninstall_shortcut`, and its removal in `uninstall`) is not modelled.
- The `Open WebUI (WSL)` task that `installers/windows.py` registers is absent from the unattended script's lists. Uninstalling it is outside the model.
- `Lower` maps only the ASCII letters. Python's `str.lower` also folds other scripts, which no task or platform name here uses.
- WslWorkspace.ParseWindowsPath: UNC paths (`\\server\share\...`) are not parsed. Callers must exclude them.
- Path parsing keeps `..` components as they are, as `pathlib` does. Characters such as `*` or `?` are not checked.
- WslWorkspace.Plan: the commands use the corrected `ToWslPath`. As written, a repository path without a drive such as `/home` is turned into `cd '\home'` (see Findings and `ToWslPathAsWritten`).
- Files are written in text mode. On Windows Python writes each `\n` as `\r\n`. The model stores the text as the program hands it to `write`, before that translation.
- The install root (`LOCALAPPDATA` or the home directory) is an input. `mkdir(parents=True)` is modelled only as `base` being added to the set of directories.

## Findings

| source | as written | input that shows it | evidently intended | confidence | as-written member | corrected member |
|---|---|---|---|---|---|---|
| installers/windows.py:203-204 | `urlopen` raises `HTTPError` for any final status outside 2xx, and the handler sleeps and retries, so the `< 500` bound never sees a 3xx or 4xx | a service that answers 404 on the probed URL: never reported ready, and the wait runs to its deadline | any answer below 500 means the service is up | not executed | Helpers.NotFoundNeverReady | Helpers.Ready |
| scripts/wsl_workspace.py:31 | a path without a drive is returned as `str(Path(path))`, which on Windows turns `/` into `\` | `/home` comes back as `\home`, which `cd` inside WSL cannot use | paths already in POSIX form are returned unchanged, as the docstring says | not executed | WslWorkspace.HomePathMangled | WslWorkspace.ToWslPath |
| installers/windows.py:409-417 | a 416 answer is logged as "assuming already complete", but `.part` is not promoted, so the size check that follows raises `Incomplete` | 5 of 10 bytes staged in `.part`, the server answers the ranged GET with 416 | a 416 to a ranged request means the download is complete: `.part` becomes the destination | not executed | Download.RangedNotSatisfiableIsIncomplete | Download.DownloadAssumingComplete |
| installers/windows.py:175-184 | the Startup fallback is never removed when a later run creates the task, and the task is never removed when a later run falls back | a first run with `schtasks` denied and `APPDATA` set, then a run with `schtasks` allowed: both the task and the Startup `.cmd` start the program at logon | one autostart mechanism per name | not executed | Autostart.FallbackThenTaskCoexist | Autostart.RegisterExclusive |

=== FILE: autostart.dfy ===
/**
 * The autostart registrar: `try_create_logon_task` and its fallback
 * `create_startup_cmd`.
 *
 * What the registrar touches is three name-keyed tables: the `.cmd` wrappers
 * written into the install root (`BASE`), the `.cmd` files in the user's
 * Startup folder, and the scheduled tasks (task name to the wrapper it runs).
 * Whether `schtasks /Create` succeeds and whether a Startup folder exists
 * (`APPDATA` is set) are inputs.
 */
module Autostart {
  import opened Wrappers
  import opened Strings

  /** The registrar's answer: `"task"` or `"startup"` (and `None` for no registration at all). */
  datatype Mechanism = Task | Startup

  /** File name to content in `BASE` and in the Startup folder; task name to wrapper file name. */
  datatype Host = Host(baseFiles: map<string, string>, startupFiles: map<string, string>, tasks: map<string, string>)

  /** The Startup-folder file for a task: spaces become `_`, then `.cmd`. */
  function StartupCmdName(name: string): (r: string)
    ensures |r| == |name| + 4 && r[|name|..] == ".cmd"
    ensures forall i :: 0 <= i < |name| ==> r[i] == if name[i] == ' ' then '_' else name[i]
    ensures ' ' !in r
  {
    ReplaceRemoves(name, ' ', '_');
    ReplaceChar(name, ' ', '_') + ".cmd"
  }

  /** The wrapper written into `BASE`: spaces become `_`, lower-cased, then `.cmd`. */
  function TaskWrapperName(name: string): (r: string)
    ensures |r| == |name| + 4 && r[|name|..] == ".cmd"
    ensures forall i :: 0 <= i < |name| ==> r[i] == LowerChar(if name[i] == ' ' then '_' else name[i])
    ensures ' ' !in r
    ensures forall i :: 0 <= i < |r| ==> !('A' <= r[i] <= 'Z')
  {
    var l := Lower(ReplaceChar(name, ' ', '_'));
    assert forall i :: 0 <= i < |l| ==> l[i] != ' ';
    l + ".cmd"
  }

  /** The `cd /d "<workdir>"` line of a wrapper. */
  function CdLine(workdir: string): string {
    "cd /d \"" + workdir + "\""
  }

  /**
   * The wrapper text both functions write: `@echo off`, a `cd /d "<workdir>"`
   * line when a working directory is given, then the command, each line ended
   * by a newline.
   */
  function WrapperText(command: string, workdir: Option<string>): (r: string)
    ensures IsPrefix("@echo off\n", r)
  {
    Lines(["@echo off"] + (if workdir.Some? then [CdLine(workdir.value)] else []) + [command])
  }

  /** The lines of a wrapper whose command and directory have no line break of their own: the command is always the last. */
  lemma WrapperLines(command: string, workdir: Option<string>)
    requires '\n' !in command
    requires workdir.Some? ==> '\n' !in workdir.value
    ensures Split(WrapperText(command, workdir), '\n')
            == ["@echo off"] + (if workdir.Some? then [CdLine(workdir.value)] else []) + [command, ""]
  {
    var ls := ["@echo off"] + (if workdir.Some? then [CdLine(workdir.value)] else []) + [command];
    assert '\n' !in "@echo off";
    if workdir.Some? {
      assert '\n' !in "cd /d \"";
      assert '\n' !in "\"";
      assert '\n' !in CdLine(workdir.value);
    }
    SplitLines(ls);
    assert ls + [""] == ["@echo off"] + (if workdir.Some? then [CdLine(workdir.value)] else []) + [command, ""];
  }

  /**
   * `create_startup_cmd`: with no Startup folder nothing is written and the
   * answer is `None`; otherwise the Startup file is (over)written and named.
   */
  function CreateStartupCmd(h: Host, hasStartupFolder: bool, name: string, command: string, workdir: Option<string>): (r: (Host, Option<string>))
    ensures r.1.Some? <==> hasStartupFolder
    ensures r.0.baseFiles == h.baseFiles && r.0.tasks == h.tasks
    ensures r.1.Some? ==> r.1.value == StartupCmdName(name) && r.1.value in r.0.startupFiles && r.0.startupFiles[r.1.value] == WrapperText(command, workdir)
    ensures forall f :: f != StartupCmdName(name) ==>
              (f in r.0.startupFiles <==> f in h.startupFiles) &&
              (f in h.startupFiles ==> r.0.startupFiles[f] == h.startupFiles[f])
    ensures r.1.None? ==> r.0 == h
  {
    if !hasStartupFolder then (h, None)
    else
      var f := StartupCmdName(name);
      (h.(startupFiles := h.startupFiles[f := WrapperText(command, workdir)]), Some(f))
  }

  /**
   * `try_create_logon_task`: the `BASE` wrapper is written first in every
   * case; a successful `schtasks /Create ... /F` answers `Task`, otherwise
   * the Startup-folder fallback decides between `Startup` and `None`.
   */
  function Register(h: Host, hasStartupFolder: bool, name: string, command: string, workdir: Option<string>, schtasksOk: bool): (r: (Host, Option<Mechanism>))
    ensures r.1 == Some(Task) <==> schtasksOk
    ensures r.1 == Some(Startup) <==> !schtasksOk && hasStartupFolder
    ensures r.1.None? <==> !schtasksOk && !hasStartupFolder
    ensures r.0.baseFiles == h.baseFiles[TaskWrapperName(name) := WrapperText(command, workdir)]
    ensures r.1 == Some(Task) ==> r.0.tasks == h.tasks[name := TaskWrapperName(name)] && r.0.startupFiles == h.startupFiles
    ensures r.1 != Some(Task) ==> r.0.tasks == h.tasks
    ensures r.1 == Some(Startup) ==> r.0.startupFiles == h.startupFiles[StartupCmdName(name) := WrapperText(command, workdir)]
    ensures r.1.None? ==> r.0.startupFiles == h.startupFiles
  {
    var h1 := h.(baseFiles := h.baseFiles[TaskWrapperName(name) := WrapperText(command, workdir)]);
    if schtasksOk then
      (h1.(tasks := h1.tasks[name := TaskWrapperName(name)]), Some(Task))
    else
      var s := CreateStartupCmd(h1, hasStartupFolder, name, command, workdir);
      (s.0, if s.1.Some? then Some(Startup) else None)
  }

  /**
   * Registering the same task again with the same outcome changes nothing:
   * the names are fixed by the task name, so the files and the task are
   * overwritten, never duplicated.
   */
  lemma ReRegisterOverwrites(h: Host, hasStartupFolder: bool, name: string, command: string, workdir: Option<string>, schtasksOk: bool)
    ensures var once := Register(h, hasStartupFolder, name, command, workdir, schtasksOk);
            Register(once.0, hasStartupFolder, name, command, workdir, schtasksOk) == once
  {
    var text := WrapperText(command, workdir);
    var w, f := TaskWrapperName(name), StartupCmdName(name);
    assert h.baseFiles[w := text][w := text] == h.baseFiles[w := text];
    assert h.tasks[name := w][name := w] == h.tasks[name := w];
    assert h.startupFiles[f := text][f := text] == h.startupFiles[f := text];
  }

  /** One registration adds at most one entry to each table: the two wrapper names and the task name. */
  lemma RegisterAddsAtMostOne(h: Host, hasStartupFolder: bool, name: string, command: string, workdir: Option<string>, schtasksOk: bool)
    ensures var r := Register(h, hasStartupFolder, name, command, workdir, schtasksOk).0;
            r.baseFiles.Keys == h.baseFiles.Keys + {TaskWrapperName(name)} &&
            r.startupFiles.Keys <= h.startupFiles.Keys + {StartupCmdName(name)} &&
            r.tasks.Keys <= h.tasks.Keys + {name}
  {
  }

  /**
   * A registration that fell back to the Startup folder is not undone by a
   * later one whose `schtasks` succeeds: the task and the Startup file then
   * both start the command at logon.
   */
  lemma FallbackThenTaskCoexist(h: Host, name: string, command: string, workdir: Option<string>)
    ensures var once := Register(h, true, name, command, workdir, false);
            var twice := Register(once.0, true, name, command, workdir, true);
            once.1 == Some(Startup) && twice.1 == Some(Task) &&
            name in twice.0.tasks && StartupCmdName(name) in twice.0.startupFiles
  {
  }

  /**
   * Registration with one mechanism at a time: as `Register`, but a task that
   * is created removes the name's Startup file, and a fallback removes the
   * name's task.
   */
  function RegisterExclusive(h: Host, hasStartupFolder: bool, name: string, command: string, workdir: Option<string>, schtasksOk: bool): (r: (Host, Option<Mechanism>))
    ensures r.1 == Register(h, hasStartupFolder, name, command, workdir, schtasksOk).1
    ensures r.0.baseFiles == Register(h, hasStartupFolder, name, command, workdir, schtasksOk).0.baseFiles
  {
    var g := Register(h, hasStartupFolder, name, command, workdir, schtasksOk);
    if schtasksOk then (g.0.(startupFiles := g.0.startupFiles - {StartupCmdName(name)}), g.1)
    else (g.0.(tasks := g.0.tasks - {name}), g.1)
  }

  /**
   * With the correction, after any registration, whatever came before it, the
   * name is backed by at most one mechanism, and by the one the answer names.
   */
  lemma ExclusiveOneMechanism(h: Host, hasStartupFolder: bool, name: string, command: string, workdir: Option<string>, schtasksOk: bool)
    ensures var r := RegisterExclusive(h, hasStartupFolder, name, command, workdir, schtasksOk);
            !(name in r.0.tasks && StartupCmdName(name) in r.0.startupFiles) &&
            (r.1 == Some(Task) ==> name in r.0.tasks) &&
            (r.1 == Some(Startup) ==> StartupCmdName(name) in r.0.startupFiles)
  {
  }

  /**
   * The registrar, changing the host in place. `hasStartupFolder` stands for
   * `get_startup_folder()` returning a folder, fixed for the run.
   */
  class Registrar {
    const hasStartupFolder: bool
    var baseFiles: map<string, string>
    var startupFiles: map<string, string>
    var tasks: map<string, string>

    constructor (hasStartupFolder: bool, h: Host)
      ensures this.hasStartupFolder == hasStartupFolder && State() == h
    {
      this.hasStartupFolder := hasStartupFolder;
      baseFiles, startupFiles, tasks := h.baseFiles, h.startupFiles, h.tasks;
    }

    function State(): Host
      reads this
    {
      Host(baseFiles, startupFiles, tasks)
    }

    /** `create_startup_cmd`, in place: the new tables and the answer are those of `CreateStartupCmd`. */
    method CreateStartup(name: string, command: string, workdir: Option<string>) returns (wrapper: Option<string>)
      modifies this`startupFiles
      ensures (State(), wrapper) == CreateStartupCmd(old(State()), hasStartupFolder, name, command, workdir)
    {
      if !hasStartupFolder {
        return None;
      }
      wrapper := Some(StartupCmdName(name));
      startupFiles := startupFiles[wrapper.value := WrapperText(command, workdir)];
    }

    /** `try_create_logon_task`, in place: the new tables and the answer are those of `Register`. */
    method TryCreateLogonTask(name: string, command: string, workdir: Option<string>, schtasksOk: bool) returns (mechanism: Option<Mechanism>)
      modifies this
      ensures (State(), mechanism) == Register(old(State()), hasStartupFolder, name, command, workdir, schtasksOk)
    {
      var wrapper := TaskWrapperName(name);
      baseFiles := baseFiles[wrapper := WrapperText(command, workdir)];
      if schtasksOk {
        tasks := tasks[name := wrapper];
        return Some(Task);
      }
      var sfw := CreateStartup(name, command, workdir);
      if sfw.Some? {
        return Some(Startup);
      }
      return None;
    }
  }
}

=== FILE: download.dfy ===
/**
 * The resumable fetcher: `resumable_download` and `_stream_copy`.
 *
 * The file system is two optional byte strings, the destination file and its
 * `.part` staging file. The remote side is the HEAD result (`Option<nat>`, the
 * Content-Length when one was given) and the replies to the GET requests.
 * `Download` states, phase by phase, what one call does to the two files;
 * `Downloader.ResumableDownload` performs the same steps in place and is proved
 * to agree with it.
 */
module Download {
  import opened Wrappers
  import opened Strings

  type Bytes = seq<bv8>

  /** Bytes asked of the response per read. */
  const CHUNK: nat := 1024 * 1024

  /**
   * How the server answers a GET. `Ok200` is a response with status 200;
   * `Ok206` any other successful status (206 Partial Content in practice);
   * `HttpError` a status urllib raises for; `NoConnection` a failure before any
   * status (socket or URL error), which the download does not catch.
   */
  datatype Reply =
    | Ok200(body: Bytes)
    | Ok206(body: Bytes)
    | HttpError(code: int)
    | NoConnection

  /** What a call raises. */
  datatype Failure =
    | HttpFailure(code: int)
    | ConnectionFailure
    | Incomplete(have: nat, total: nat)

  /** How a call ends: skipped early, returned after the transfer, or raised. */
  datatype Outcome = Skipped | Saved | Raised(failure: Failure)

  datatype Files = Files(dest: Option<Bytes>, part: Option<Bytes>)

  function Size(f: Option<Bytes>): nat {
    if f.Some? then |f.value| else 0
  }

  /** Python truthiness of the HEAD result: `None` and `0` are both false. */
  predicate Truthy(total: Option<nat>) {
    total.Some? && total.value > 0
  }

  // ---------------------------------------------------------------------
  // The phases of one call
  // ---------------------------------------------------------------------

  /** Phase 1: the destination counts as complete when it exists and its size is unknown or equal to the total. */
  predicate AlreadyComplete(dest: Option<Bytes>, total: Option<nat>) {
    dest.Some? && (total.None? || |dest.value| == total.value)
  }

  /**
   * Phase 2: an incomplete destination is folded into `.part`. The larger of
   * the two survives; on a tie the existing `.part` is kept.
   */
  function AbsorbDest(f: Files): (r: Files)
    requires f.dest.Some?
    ensures r.dest.None? && r.part.Some?
    ensures r.part.value == f.dest.value || r.part == f.part
    ensures |r.part.value| >= |f.dest.value| && |r.part.value| >= Size(f.part)
    ensures f.part.Some? && |f.part.value| == |f.dest.value| ==> r.part == f.part
  {
    if f.part.Some? then
      if |f.dest.value| > |f.part.value| then Files(None, f.dest) else Files(None, f.part)
    else
      Files(None, f.dest)
  }

  /** Phase 3: a `.part` longer than the known total is discarded; afterwards it never exceeds the total. */
  function DiscardOversized(part: Option<Bytes>, total: Option<nat>): (r: Option<Bytes>)
    ensures r == part || r.None?
    ensures total.Some? ==> Size(r) <= total.value
    ensures total.None? ==> r == part
    ensures r.None? && part.Some? ==> total.Some? && |part.value| > total.value
  {
    if total.Some? && Size(part) > total.value then None else part
  }

  /** The staging file as it stands before the request (phases 1-3 of a call that did not skip). */
  function Staged(f: Files, total: Option<nat>): (r: Option<Bytes>)
    requires !AlreadyComplete(f.dest, total)
    ensures total.Some? ==> Size(r) <= total.value
  {
    var f1 := if f.dest.Some? then AbsorbDest(f) else f;
    DiscardOversized(f1.part, total)
  }

  /**
   * Phase 4: the first byte asked for in a `Range: bytes=k-` header, if one is
   * sent: exactly when `k > 0`, the total is truthy and `k < total`.
   */
  function RangeStart(already: nat, total: Option<nat>): (r: Option<nat>)
    ensures r.Some? <==> already > 0 && Truthy(total) && already < total.value
    ensures r.Some? ==> r.value == already
  {
    if already > 0 && Truthy(total) && already < total.value then Some(already) else None
  }

  /** The header value `bytes=<k>-`: the digits between `bytes=` and the final `-` read back as `k`. */
  function RangeHeader(k: nat): (h: string)
    ensures |h| >= 8 && IsPrefix("bytes=", h) && h[|h| - 1] == '-'
    ensures forall i :: 6 <= i < |h| - 1 ==> '0' <= h[i] <= '9'
    ensures DecimalValue(h[6..|h| - 1]) == k
  {
    var digits := Decimal(k);
    var h := "bytes=" + digits + "-";
    assert h[6..|h| - 1] == digits;
    DecimalRoundTrip(k);
    h
  }

  /** The `Range` header sent for a requested range, if any. */
  function HeaderFor(range: Option<nat>): Option<string> {
    if range.Some? then Some(RangeHeader(range.value)) else None
  }

  /**
   * The range the first GET asks for in a call that did not skip: the size of
   * the staged `.part`, when it is positive and below a truthy total.
   */
  function RequestedRange(f: Files, total: Option<nat>): (r: Option<nat>)
    requires !AlreadyComplete(f.dest, total)
    ensures r.Some? ==> Staged(f, total).Some? && r.value == |Staged(f, total).value|
    ensures r.Some? ==> total.Some? && 0 < r.value < total.value
  {
    RangeStart(Size(Staged(f, total)), total)
  }

  /**
   * Phase 5: the GET. With `already = Size(part)`: an error other than 416
   * leaves `.part` as it was and is raised; 416 leaves it as it was and is not
   * an error; a 200 answer while `already > 0` deletes `.part` and writes the
   * body of a second, plain GET (`retry`) fresh; any other success appends the
   * body at offset `already`, or writes it fresh when `already == 0`.
   */
  function Transfer(part: Option<Bytes>, first: Reply, retry: Reply): (r: (Option<Bytes>, Option<Failure>))
    ensures first.HttpError? && first.code != 416 ==> r == (part, Some(HttpFailure(first.code)))
    ensures first.NoConnection? ==> r == (part, Some(ConnectionFailure))
    ensures first == HttpError(416) ==> r == (part, None)
    ensures first.Ok206? && Size(part) > 0 ==> r == (Some(part.value + first.body), None)
    ensures (first.Ok200? || first.Ok206?) && Size(part) == 0 ==> r == (Some(first.body), None)
    ensures first.Ok200? && Size(part) > 0 ==>
              match retry
              case Ok200(b) => r == (Some(b), None)
              case Ok206(b) => r == (Some(b), None)
              case HttpError(c) => r == (None, if c == 416 then None else Some(HttpFailure(c)))
              case NoConnection => r == (None, Some(ConnectionFailure))
  {
    var already := Size(part);
    match first
    case HttpError(code) => (part, if code == 416 then None else Some(HttpFailure(code)))
    case NoConnection => (part, Some(ConnectionFailure))
    case Ok200(body) =>
      if already > 0 then
        match retry
        case HttpError(code) => (None, if code == 416 then None else Some(HttpFailure(code)))
        case NoConnection => (None, Some(ConnectionFailure))
        case Ok200(b) => (Some(b), None)
        case Ok206(b) => (Some(b), None)
      else
        (Some(body), None)
    case Ok206(body) =>
      (Some(if already > 0 then part.value + body else body), None)
  }

  /**
   * Phase 6: a `.part` shorter than a known total is an error and stays in
   * place; otherwise an existing `.part` is renamed onto the destination.
   */
  function Finish(part: Option<Bytes>, total: Option<nat>): (r: (Files, Outcome))
    ensures r.0.dest.None? || r.0.part.None?
    ensures r.1.Raised? <==> total.Some? && part.Some? && |part.value| < total.value
    ensures r.1.Raised? ==> r == (Files(None, part), Raised(Incomplete(|part.value|, total.value)))
    ensures !r.1.Raised? ==> r == (Files(part, None), Saved)
  {
    if total.Some? && part.Some? && |part.value| < total.value then
      (Files(None, part), Raised(Incomplete(|part.value|, total.value)))
    else
      (Files(part, None), Saved)
  }

  /**
   * One call of `resumable_download`: the files afterwards and how the call
   * ended. `first` answers the first GET; `retry` answers the plain GET that
   * follows a 200 to a call that already had bytes (ignored otherwise).
   */
  function Download(f: Files, total: Option<nat>, first: Reply, retry: Reply): (r: (Files, Outcome))
    ensures r.1 == Skipped <==> AlreadyComplete(f.dest, total)
    ensures r.1 == Skipped ==> r.0 == f
    ensures r.1 != Skipped ==> r.0.dest.None? || r.0.part.None?
    ensures r.1.Raised? ==> r.0.dest.None?
  {
    if AlreadyComplete(f.dest, total) then (f, Skipped)
    else
      var t := Transfer(Staged(f, total), first, retry);
      if t.1.Some? then (Files(None, t.0), Raised(t.1.value)) else Finish(t.0, total)
  }

  // ---------------------------------------------------------------------
  // `_stream_copy`'s progress report
  // ---------------------------------------------------------------------

  /** The byte counter after each read of `n` bytes in whole chunks, starting from `start`. */
  function Checkpoints(start: nat, n: nat): (r: seq<nat>)
    ensures |r| > 0 <==> n > 0
    ensures n > 0 ==> r[|r| - 1] == start + n
    decreases n
  {
    if n == 0 then []
    else
      var c := if n < CHUNK then n else CHUNK;
      [start + c] + Checkpoints(start + c, n - c)
  }

  /** Every counter value lies above the start and at most `n` beyond it. */
  lemma {:induction false} CheckpointsBounded(start: nat, n: nat)
    ensures forall i :: 0 <= i < |Checkpoints(start, n)| ==> start < Checkpoints(start, n)[i] <= start + n
    decreases n
  {
    if n > 0 {
      var c := if n < CHUNK then n else CHUNK;
      var r, q := Checkpoints(start, n), Checkpoints(start + c, n - c);
      CheckpointsBounded(start + c, n - c);
      assert r == [start + c] + q;
      forall i | 0 < i < |r| ensures start < r[i] <= start + n {
        assert r[i] == q[i - 1];
      }
    }
  }

  /** `int(read * 100 / total)` for non-negative operands. */
  function Pct(read: nat, total: nat): nat
    requires total > 0
  {
    read * 100 / total
  }

  /** The whole total is 100 percent. */
  lemma PctOfTotal(total: nat)
    requires total > 0
    ensures Pct(total, total) == 100
  {
    var q, r := total * 100 / total, total * 100 % total;
    assert total * 100 == total * q + r && 0 <= r < total;
    assert total * (q - 100) == -r;
    MulBounds(total, q - 100);
  }

  /** A positive factor at least 1 in size keeps a product at least as large as the other factor. */
  lemma MulBounds(t: int, k: int)
    requires t > 0
    ensures k >= 1 ==> t * k >= t
    ensures k <= -1 ==> t * k <= -t
  {
  }

  /**
   * The percentages logged for the counter values `counts`, `last` being the
   * one logged before: nothing when the total is not truthy, otherwise a
   * percentage whenever it is 100 or at least 5 above the last one logged.
   */
  function Progress(counts: seq<nat>, total: Option<nat>, last: int): (r: seq<int>)
    ensures |r| <= |counts|
    ensures !Truthy(total) ==> r == []
  {
    if counts == [] || !Truthy(total) then []
    else
      var pct := Pct(counts[0], total.value);
      if pct == 100 || pct >= last + 5 then [pct] + Progress(counts[1..], total, pct)
      else Progress(counts[1..], total, last)
  }

  /** Reading `n > 0` bytes: one chunk of at most `CHUNK` bytes, then the rest. */
  lemma CheckpointsFirst(read: nat, n: nat)
    requires n > 0
    ensures var c := if n < CHUNK then n else CHUNK;
            Checkpoints(read, n) == [read + c] + Checkpoints(read + c, n - c)
  {
  }

  /** A counter value whose percentage is due is logged, and it becomes the last one logged. */
  lemma ProgressLogs(count: nat, rest: seq<nat>, total: Option<nat>, last: int)
    requires Truthy(total)
    requires Pct(count, total.value) == 100 || Pct(count, total.value) >= last + 5
    ensures Progress([count] + rest, total, last)
            == [Pct(count, total.value)] + Progress(rest, total, Pct(count, total.value))
  {
    assert ([count] + rest)[0] == count && ([count] + rest)[1..] == rest;
  }

  /** A counter value whose percentage is not due logs nothing and leaves the last one logged as it was. */
  lemma ProgressQuiet(count: nat, rest: seq<nat>, total: Option<nat>, last: int)
    requires !(Truthy(total) && (Pct(count, total.value) == 100 || Pct(count, total.value) >= last + 5))
    ensures Progress([count] + rest, total, last) == Progress(rest, total, last)
  {
    assert ([count] + rest)[0] == count && ([count] + rest)[1..] == rest;
  }

  /**
   * The loop step of `_stream_copy` keeps the log on track: once the counter
   * value `count` is logged or not, what has been logged followed by what the
   * remaining counter values will log is unchanged.
   */
  lemma ProgressKept(logged: seq<int>, last: int, count: nat, rest: seq<nat>, total: Option<nat>,
                     logged': seq<int>, last': int)
    requires if Truthy(total) && (Pct(count, total.value) == 100 || Pct(count, total.value) >= last + 5)
             then logged' == logged + [Pct(count, total.value)] && last' == Pct(count, total.value)
             else logged' == logged && last' == last
    ensures logged' + Progress(rest, total, last') == logged + Progress([count] + rest, total, last)
  {
    if Truthy(total) && (Pct(count, total.value) == 100 || Pct(count, total.value) >= last + 5) {
      ProgressLogs(count, rest, total, last);
      var tail := Progress(rest, total, last');
      assert (logged + [last']) + tail == logged + ([last'] + tail);
    } else {
      ProgressQuiet(count, rest, total, last);
    }
  }

  /** Each entry of `p` is 100 or at least 5 above the one before it; the first is compared with `last`. */
  predicate Spaced(p: seq<int>, last: int) {
    (p != [] ==> p[0] == 100 || p[0] >= last + 5) &&
    forall i :: 0 < i < |p| ==> p[i] == 100 || p[i] >= p[i - 1] + 5
  }

  /** Every logged percentage is 100 or at least 5 above the one logged before it. */
  lemma {:induction false} ProgressSpaced(counts: seq<nat>, total: Option<nat>, last: int)
    ensures Spaced(Progress(counts, total, last), last)
  {
    if counts != [] && Truthy(total) {
      var pct := Pct(counts[0], total.value);
      if pct == 100 || pct >= last + 5 {
        ProgressSpaced(counts[1..], total, pct);
        var q := Progress(counts[1..], total, pct);
        var p := [pct] + q;
        forall i | 0 < i < |p|
          ensures p[i] == 100 || p[i] >= p[i - 1] + 5
        {
          assert p[i] == q[i - 1];
          if i > 1 {
            assert p[i - 1] == q[i - 2];
          }
        }
      } else {
        ProgressSpaced(counts[1..], total, last);
      }
    }
  }

  /** When the last counter value reaches exactly the truthy total, the last line logged says 100%. */
  lemma {:induction false} ProgressEndsAtHundred(counts: seq<nat>, total: Option<nat>, last: int)
    requires Truthy(total) && counts != [] && counts[|counts| - 1] == total.value
    ensures var p := Progress(counts, total, last);
            p != [] && p[|p| - 1] == 100
  {
    var pct, rest := Pct(counts[0], total.value), counts[1..];
    assert counts == [counts[0]] + rest;
    if rest == [] {
      PctOfTotal(total.value);
      ProgressLogs(counts[0], rest, total, last);
    } else {
      assert rest[|rest| - 1] == total.value;
      if pct == 100 || pct >= last + 5 {
        ProgressLogs(counts[0], rest, total, last);
        ProgressEndsAtHundred(rest, total, pct);
      } else {
        ProgressQuiet(counts[0], rest, total, last);
        ProgressEndsAtHundred(rest, total, last);
      }
    }
  }

  /** Nothing is logged without a truthy total; otherwise each logged percentage is that of one counter value. */
  lemma {:induction false} ProgressFromCounts(counts: seq<nat>, total: Option<nat>, last: int)
    ensures var p := Progress(counts, total, last);
            |p| <= |counts| && (!Truthy(total) ==> p == []) &&
            forall i :: 0 <= i < |p| ==> exists j :: 0 <= j < |counts| && p[i] == Pct(counts[j], total.value)
  {
    if counts != [] && Truthy(total) {
      var pct := Pct(counts[0], total.value);
      var rest := counts[1..];
      var l := if pct == 100 || pct >= last + 5 then pct else last;
      ProgressFromCounts(rest, total, l);
      var q := Progress(rest, total, l);
      forall i | 0 <= i < |q|
        ensures exists j :: 0 <= j < |counts| && q[i] == Pct(counts[j], total.value)
      {
        var j :| 0 <= j < |rest| && q[i] == Pct(rest[j], total.value);
        assert counts[j + 1] == rest[j];
      }
    }
  }

  // ---------------------------------------------------------------------
  // The two files, changed in place
  // ---------------------------------------------------------------------

  /** After the next chunk, what has been written is what was written before followed by that chunk. */
  lemma WrittenGrows(before: Bytes, body: Bytes, pos: nat, n: nat)
    requires pos + n <= |body|
    ensures before + body[..pos + n] == (before + body[..pos]) + body[pos..pos + n]
  {
    assert body[..pos + n] == body[..pos] + body[pos..pos + n];
  }

  class Downloader {
    var dest: Option<Bytes>
    var part: Option<Bytes>

    constructor (dest: Option<Bytes>, part: Option<Bytes>)
      ensures this.dest == dest && this.part == part
    {
      this.dest := dest;
      this.part := part;
    }

    function State(): Files
      reads this
    {
      Files(dest, part)
    }

    /** `f.write(chunk)` on the open `.part`: the chunk is appended. */
    method WriteChunk(chunk: Bytes)
      requires part.Some?
      modifies this`part
      ensures part == Some(old(part.value) + chunk)
    {
      part := Some(part.value + chunk);
    }

    /**
     * `_stream_copy`: reads the body a chunk at a time and appends each chunk
     * to the open `.part`. The counter ends at `start` plus the bytes written,
     * and the percentages logged are those `Progress` gives for the counter
     * after each chunk.
     */
    method StreamCopy(body: Bytes, total: Option<nat>, start: nat) returns (read: nat, logged: seq<int>)
      requires part.Some?
      modifies this`part
      ensures part == Some(old(part.value) + body)
      ensures read == start + |body|
      ensures logged == Progress(Checkpoints(start, |body|), total, -1)
    {
      read := start;
      logged := [];
      var lastPct: int := -1;
      var pos: nat := 0;
      ghost var before := part.value;
      assert before + body[..pos] == before;
      while pos < |body|
        invariant pos <= |body|
        invariant part.Some? && part.value == before + body[..pos]
        invariant read == start + pos
        invariant logged + Progress(Checkpoints(read, |body| - pos), total, lastPct)
                  == Progress(Checkpoints(start, |body|), total, -1)
      {
        ghost var loggedBefore, lastBefore, readBefore, left := logged, lastPct, read, |body| - pos;
        var n := if |body| - pos < CHUNK then |body| - pos else CHUNK;
        var b := body[pos..pos + n];
        WrittenGrows(before, body, pos, n);
        WriteChunk(b);
        read := read + n;
        pos := pos + n;
        if total.Some? && total.value > 0 {
          var pct := Pct(read, total.value);
          if pct == 100 || pct >= lastPct + 5 {
            logged := logged + [pct];
            lastPct := pct;
          }
        }
        CheckpointsFirst(readBefore, left);
        ProgressKept(loggedBefore, lastBefore, read, Checkpoints(read, |body| - pos), total, logged, lastPct);
      }
      assert body[..pos] == body;
      assert Checkpoints(read, |body| - pos) == [];
      assert logged + [] == logged;
    }

    /**
     * The first part of `resumable_download` (phases 1-3): skip a complete
     * destination, fold an incomplete one into `.part`, discard an oversized
     * `.part`.
     */
    method Stage(total: Option<nat>) returns (skip: bool)
      modifies this
      ensures skip == AlreadyComplete(old(dest), total)
      ensures skip ==> dest == old(dest) && part == old(part)
      ensures !skip ==> dest.None? && part == Staged(old(State()), total)
    {
      // Already complete?
      if dest.Some? {
        if total.None? || |dest.value| == total.value {
          return true;
        }
        // Move the incomplete destination to .part.
        if part.Some? {
          if |dest.value| > |part.value| {
            part := None;
            part, dest := dest, None;
          } else {
            dest := None;
          }
        } else {
          part, dest := dest, None;
        }
      }
      var already := if part.Some? then |part.value| else 0;
      if total.Some? && already > total.value {
        part := None;
      }
      return false;
    }

    /**
     * The GET of `resumable_download` (phase 5), on the staged `.part`: the
     * new `.part` and the failure raised are those `Transfer` gives.
     */
    method Fetch(total: Option<nat>, first: Reply, retry: Reply) returns (failure: Option<Failure>)
      modifies this`part
      ensures (part, failure) == Transfer(old(part), first, retry)
    {
      var already := if part.Some? then |part.value| else 0;
      failure := None;
      match first {
        case HttpError(code) =>
          if code != 416 {
            failure := Some(HttpFailure(code));
          }
        case NoConnection =>
          failure := Some(ConnectionFailure);
        case Ok200(_) =>
          if already > 0 {
            // The server ignored the range: start over from zero.
            part := None;
            match retry {
              case HttpError(code) =>
                if code != 416 {
                  failure := Some(HttpFailure(code));
                }
              case NoConnection =>
                failure := Some(ConnectionFailure);
              case _ =>
                part := Some([]);
                var _, _ := StreamCopy(retry.body, total, 0);
                assert [] + retry.body == retry.body;
            }
          } else {
            part := Some([]);
            var _, _ := StreamCopy(first.body, total, 0);
            assert [] + first.body == first.body;
          }
        case Ok206(_) =>
          if already == 0 {
            part := Some([]);
          }
          var _, _ := StreamCopy(first.body, total, already);
          assert [] + first.body == first.body;
      }
    }

    /**
     * `resumable_download`. Returns how the call ended and the range it asked
     * for; the two files end as `Download` says.
     */
    method ResumableDownload(total: Option<nat>, first: Reply, retry: Reply) returns (outcome: Outcome, rangeHeader: Option<string>)
      modifies this
      ensures (State(), outcome) == Download(old(State()), total, first, retry)
      ensures !AlreadyComplete(old(dest), total) ==> rangeHeader == HeaderFor(RequestedRange(old(State()), total))
      ensures AlreadyComplete(old(dest), total) ==> rangeHeader.None?
    {
      var skip := Stage(total);
      if skip {
        return Skipped, None;
      }
      var already := if part.Some? then |part.value| else 0;
      rangeHeader := HeaderFor(RangeStart(already, total));
      var failure := Fetch(total, first, retry);
      if failure.Some? {
        return Raised(failure.value), rangeHeader;
      }
      if total.Some? && part.Some? && |part.value| < total.value {
        return Raised(Incomplete(|part.value|, total.value)), rangeHeader;
      }
      if part.Some? {
        dest, part := part, None;
      }
      return Saved, rangeHeader;
    }
  }

  // ---------------------------------------------------------------------
  // Properties of a call
  // ---------------------------------------------------------------------

  /** A complete destination (or one of unknown size) is left alone, and so is `.part`. */
  lemma CompleteIsSkipped(f: Files, total: Option<nat>, first: Reply, retry: Reply)
    requires f.dest.Some? && (total.None? || |f.dest.value| == total.value)
    ensures Download(f, total, first, retry) == (f, Skipped)
  {
  }

  /**
   * A server that ignores the range and answers 200 while `k > 0` bytes were
   * staged: the result holds exactly the body of the second GET, never the old
   * bytes followed by a body.
   */
  lemma RangeIgnoredRestarts(f: Files, total: Option<nat>, body: Bytes, again: Bytes)
    requires !AlreadyComplete(f.dest, total) && Size(Staged(f, total)) > 0
    ensures var r := Download(f, total, Ok200(body), Ok200(again));
            (r.0.dest == Some(again) && r.1 == Saved) || (r.0.part == Some(again) && r.1.Raised?)
  {
  }

  /** A 206 answer appends the body at offset k: the staged bytes are kept as the prefix. */
  lemma PartialAppends(f: Files, total: Option<nat>, body: Bytes, retry: Reply)
    requires !AlreadyComplete(f.dest, total) && Size(Staged(f, total)) > 0
    ensures var r := Download(f, total, Ok206(body), retry);
            var appended := Staged(f, total).value + body;
            (r.0.dest == Some(appended) && r.1 == Saved) || (r.0.part == Some(appended) && r.1.Raised?)
  {
  }

  /**
   * An HTTP error other than 416, or a lost connection, on the first GET
   * raises with the staged bytes kept in `.part` (see `RestartErrorLosesStaging`
   * for the plain GET after a restart).
   */
  lemma ErrorKeepsStaging(f: Files, total: Option<nat>, first: Reply, retry: Reply)
    requires !AlreadyComplete(f.dest, total)
    requires first.NoConnection? || (first.HttpError? && first.code != 416)
    ensures Download(f, total, first, retry).0 == Files(None, Staged(f, total))
    ensures Download(f, total, first, retry).1.Raised?
  {
  }

  /**
   * A 416 answer to a ranged GET is not raised as an HTTP error, but the
   * staged bytes are then shorter than the total, so the call raises
   * `Incomplete` with `.part` kept: a ranged download never completes this way.
   */
  lemma RangedNotSatisfiableIsIncomplete(f: Files, total: Option<nat>, retry: Reply)
    requires !AlreadyComplete(f.dest, total) && RequestedRange(f, total).Some?
    ensures var k := RequestedRange(f, total).value;
            Download(f, total, HttpError(416), retry)
            == (Files(None, Staged(f, total)), Raised(Incomplete(k, total.value)))
  {
  }

  /** A call that is not skipped never leaves both files in place. */
  lemma NeverBothFiles(f: Files, total: Option<nat>, first: Reply, retry: Reply)
    requires !AlreadyComplete(f.dest, total)
    ensures Download(f, total, first, retry).0.dest.None? || Download(f, total, first, retry).0.part.None?
  {
  }

  /**
   * After a normal return with a known total, a destination that exists holds
   * at least that many bytes (`SavedWithoutDestination` says when none exists).
   */
  lemma SavedMeetsTotal(f: Files, total: Option<nat>, first: Reply, retry: Reply)
    requires total.Some?
    requires Download(f, total, first, retry).1 == Saved
    requires Download(f, total, first, retry).0.dest.Some?
    ensures |Download(f, total, first, retry).0.dest.value| >= total.value
  {
  }

  /**
   * A complete `.part` with the destination missing: no Range header goes out
   * (k == total), yet a 200 answer still deletes `.part` and fetches again.
   */
  lemma CompletePartRefetched(p: Bytes, body: Bytes, again: Bytes)
    requires |p| > 0
    ensures RequestedRange(Files(None, Some(p)), Some(|p|)).None?
    ensures Download(Files(None, Some(p)), Some(|p|), Ok200(body), Ok200(again)).0
            == if |again| < |p| then Files(None, Some(again)) else Files(Some(again), None)
    ensures Download(Files(None, Some(p)), Some(|p|), Ok200(body), Ok200(again)).1
            == if |again| < |p| then Raised(Incomplete(|again|, |p|)) else Saved
  {
  }

  // ---------------------------------------------------------------------
  // Against an honest server
  // ---------------------------------------------------------------------

  /**
   * A server holding `artifact`: with a range it can serve and `honorsRange`,
   * 206 with the suffix; with a range past the end, 416; otherwise 200 with the
   * whole artifact.
   */
  function Serve(artifact: Bytes, range: Option<nat>, honorsRange: bool): Reply
  {
    if range.Some? && honorsRange then
      if range.value < |artifact| then Ok206(artifact[range.value..]) else HttpError(416)
    else
      Ok200(artifact)
  }

  /** A file that can be resumed towards `artifact`: a prefix of it, or longer than it (then discarded). */
  predicate Resumable(x: Option<Bytes>, artifact: Bytes) {
    x.None? || IsPrefixBytes(x.value, artifact) || |x.value| > |artifact|
  }

  predicate IsPrefixBytes(p: Bytes, s: Bytes) {
    |p| <= |s| && s[..|p|] == p
  }

  lemma StagedResumable(f: Files, artifact: Bytes)
    requires Resumable(f.dest, artifact) && Resumable(f.part, artifact)
    requires !AlreadyComplete(f.dest, Some(|artifact|))
    ensures var s := Staged(f, Some(|artifact|));
            s.None? || IsPrefixBytes(s.value, artifact)
  {
  }

  /**
   * Resumability: whatever prefix of the artifact is on disk, one call against
   * a server that serves the artifact (honouring ranges or not) leaves exactly
   * the artifact at the destination and no `.part`; a destination that was
   * already complete is left as it is.
   */
  lemma {:induction false} HonestServerCompletes(f: Files, artifact: Bytes, honorsRange: bool)
    requires Resumable(f.dest, artifact) && Resumable(f.part, artifact)
    ensures var total := Some(|artifact|);
            var first := if AlreadyComplete(f.dest, total) then Ok200(artifact)
                         else Serve(artifact, RequestedRange(f, total), honorsRange);
            var r := Download(f, total, first, Ok200(artifact));
            r.0.dest == Some(artifact) &&
            (r.1 == Skipped || (r.1 == Saved && r.0.part.None?))
  {
    var total := Some(|artifact|);
    if AlreadyComplete(f.dest, total) {
      var d := f.dest.value;
      assert d == artifact[..|d|] && |d| == |artifact|;
      assert artifact[..|artifact|] == artifact;
    } else {
      StagedResumable(f, artifact);
      var s := Staged(f, total);
      var k := Size(s);
      if s.Some? && 0 < k < |artifact| && honorsRange {
        assert artifact[..k] + artifact[k..] == artifact;
      }
      if s.Some? && k == |artifact| {
        assert artifact[..k] == artifact;
      }
    }
  }

  /** After a call that saved the artifact, a second call with the same total is skipped and changes nothing. */
  lemma SecondRunIsSkipped(artifact: Bytes, first: Reply, retry: Reply)
    ensures Download(Files(Some(artifact), None), Some(|artifact|), first, retry)
            == (Files(Some(artifact), None), Skipped)
  {
  }

  /**
   * On a resumed call (k staged bytes, 0 < k < total) against a server that
   * honours ranges, only the `total - k` missing bytes are transferred: the
   * staged bytes followed by the 206 body are the artifact, the call saves
   * exactly the artifact, and the plain GET of a restart never happens (the
   * result does not depend on its reply).
   */
  lemma ResumeTransfersOnlyTheRest(f: Files, artifact: Bytes, retry: Reply, retry': Reply)
    requires Resumable(f.dest, artifact) && Resumable(f.part, artifact)
    requires !AlreadyComplete(f.dest, Some(|artifact|))
    requires RequestedRange(f, Some(|artifact|)).Some?
    ensures var total := Some(|artifact|);
            var k := RequestedRange(f, total).value;
            var reply := Serve(artifact, Some(k), true);
            reply.Ok206? && |reply.body| == |artifact| - k &&
            Staged(f, total).value + reply.body == artifact &&
            Download(f, total, reply, retry) == Download(f, total, reply, retry') == (Files(Some(artifact), None), Saved)
  {
    var total := Some(|artifact|);
    var k := RequestedRange(f, total).value;
    StagedResumable(f, artifact);
    assert Staged(f, total).value == artifact[..k];
    assert artifact[..k] + artifact[k..] == artifact;
  }

  /**
   * After a restart (a 200 answer while k > 0 bytes were staged) `.part` is
   * already deleted, so an HTTP error other than 416, or a lost connection, on
   * the plain GET raises with neither file left.
   */
  lemma RestartErrorLosesStaging(f: Files, total: Option<nat>, body: Bytes, retry: Reply)
    requires !AlreadyComplete(f.dest, total) && Size(Staged(f, total)) > 0
    requires retry.NoConnection? || (retry.HttpError? && retry.code != 416)
    ensures Download(f, total, Ok200(body), retry)
            == (Files(None, None), Raised(if retry.NoConnection? then ConnectionFailure else HttpFailure(retry.code)))
  {
  }

  /**
   * A normal return leaves no destination exactly when the transfer left no
   * `.part`: a 416 with nothing staged, or a 416 to the plain GET after a
   * restart (which deleted the staged bytes).
   */
  lemma SavedWithoutDestination(f: Files, total: Option<nat>, first: Reply, retry: Reply)
    requires !AlreadyComplete(f.dest, total)
    ensures var r := Download(f, total, first, retry);
            (r.1 == Saved && r.0.dest.None?) <==>
            (first == HttpError(416) && Staged(f, total).None?) ||
            (first.Ok200? && Size(Staged(f, total)) > 0 && retry == HttpError(416))
  {
  }

  // ---------------------------------------------------------------------
  // 416 as the comment reads it
  // ---------------------------------------------------------------------

  /**
   * The call with a 416 answer to a ranged request taken as "already
   * complete": the staged `.part` becomes the destination and the call
   * returns normally. Every other case is `Download` unchanged.
   */
  function DownloadAssumingComplete(f: Files, total: Option<nat>, first: Reply, retry: Reply): (r: (Files, Outcome))
    ensures !(first == HttpError(416) && !AlreadyComplete(f.dest, total) && RequestedRange(f, total).Some?) ==>
              r == Download(f, total, first, retry)
  {
    if first == HttpError(416) && !AlreadyComplete(f.dest, total) && RequestedRange(f, total).Some? then
      (Files(Staged(f, total), None), Saved)
    else
      Download(f, total, first, retry)
  }

  /**
   * With the correction, a ranged request answered 416 ends normally with the
   * k staged bytes at the destination and no `.part`, where the code as
   * written raises `Incomplete` (`RangedNotSatisfiableIsIncomplete`).
   */
  lemma NotSatisfiableAcceptedAsComplete(f: Files, total: Option<nat>, retry: Reply)
    requires !AlreadyComplete(f.dest, total) && RequestedRange(f, total).Some?
    ensures var r := DownloadAssumingComplete(f, total, HttpError(416), retry);
            r.1 == Saved && r.0.part.None? && r.0.dest.Some? &&
            |r.0.dest.value| == RequestedRange(f, total).value &&
            Download(f, total, HttpError(416), retry).1.Raised?
  {
  }
}

=== FILE: helpers.dfy ===
/**
 * The installer's small decisions: whether the user PATH needs a directory,
 * whether Ollama already lists the model, whether an HTTP answer means the
 * service is up, and whether the Modelfile needs writing.
 */
module Helpers {
  import opened Wrappers
  import opened Strings

  // ---------------------------------------------------------------------
  // add_to_user_path
  // ---------------------------------------------------------------------

  /** Every piece stripped, in order. */
  function StripAll(pieces: seq<string>): (r: seq<string>)
    ensures |r| == |pieces| && forall i :: 0 <= i < |r| ==> r[i] == Strip(pieces[i])
  {
    seq(|pieces|, i requires 0 <= i < |pieces| => Strip(pieces[i]))
  }

  /** The non-empty strings of a list, in order. */
  function NonEmpty(xs: seq<string>): (r: seq<string>)
    ensures |r| <= |xs|
    ensures forall e :: e in r <==> e in xs && e != []
  {
    if xs == [] then []
    else if xs[0] == [] then NonEmpty(xs[1..])
    else [xs[0]] + NonEmpty(xs[1..])
  }

  /** Filtering two lists one after the other filters each, in order. */
  lemma {:induction false} NonEmptyAppend(xs: seq<string>, ys: seq<string>)
    ensures NonEmpty(xs + ys) == NonEmpty(xs) + NonEmpty(ys)
    decreases |xs|
  {
    if xs == [] {
      assert xs + ys == ys;
    } else {
      NonEmptyAppend(xs[1..], ys);
      assert (xs + ys)[0] == xs[0] && (xs + ys)[1..] == xs[1..] + ys;
    }
  }

  /** The stripped pieces of a list that are not empty after stripping, in order. */
  function Entries(pieces: seq<string>): seq<string> {
    NonEmpty(StripAll(pieces))
  }

  /** An entry is there exactly when some piece strips to it and it is not empty. */
  lemma EntriesMember(pieces: seq<string>, e: string)
    ensures e in Entries(pieces) <==> e != [] && exists i :: 0 <= i < |pieces| && Strip(pieces[i]) == e
  {
    var st := StripAll(pieces);
    if e in st {
      var i :| 0 <= i < |st| && st[i] == e;
      assert Strip(pieces[i]) == e;
    }
    if exists i :: 0 <= i < |pieces| && Strip(pieces[i]) == e {
      var i :| 0 <= i < |pieces| && Strip(pieces[i]) == e;
      assert st[i] == e;
    }
  }

  /** The entries of two lists one after the other are the entries of each, in order. */
  lemma EntriesAppend(a: seq<string>, b: seq<string>)
    ensures Entries(a + b) == Entries(a) + Entries(b)
  {
    var x, y := StripAll(a + b), StripAll(a) + StripAll(b);
    forall i | 0 <= i < |x| ensures x[i] == y[i] {
      if i < |a| {
        assert (a + b)[i] == a[i];
      } else {
        assert (a + b)[i] == b[i - |a|];
      }
    }
    assert x == y;
    NonEmptyAppend(StripAll(a), StripAll(b));
  }

  /** Some piece of the `;`-split PATH, stripped, is exactly the (non-empty) directory. */
  predicate Listed(current: string, dir: string) {
    var ps := Split(current, ';');
    dir != [] && exists i :: 0 <= i < |ps| && Strip(ps[i]) == dir
  }

  /** `[p.strip() for p in current.split(";") if p.strip()]`: the entries are exactly the listed directories. */
  function PathEntries(current: string): (r: seq<string>)
    ensures forall e :: e in r <==> Listed(current, e)
  {
    var ps := Split(current, ';');
    forall e ensures e in Entries(ps) <==> Listed(current, e) {
      EntriesMember(ps, e);
    }
    Entries(ps)
  }

  /**
   * `add_to_user_path`: no change (`None`) when the directory already is one
   * of the stripped, non-empty entries of the PATH; otherwise the value handed
   * to `setx PATH` is the current PATH, a `;` and the directory.
   */
  function NewUserPath(current: string, dir: string): (r: Option<string>)
    ensures r.None? <==> Listed(current, dir)
    ensures r.Some? ==> r.value == current + ";" + dir
  {
    var ps := Split(current, ';');
    EntriesMember(ps, dir);
    if dir in Entries(ps) then None else Some(current + ";" + dir)
  }

  /**
   * Adding is idempotent: after a directory with no `;` and no surrounding
   * white space has been appended, it is the last entry and a second call
   * asks for no change.
   */
  lemma AddedDirIsListed(current: string, dir: string)
    requires dir != [] && ';' !in dir && Strip(dir) == dir
    ensures var r := NewUserPath(current, dir);
            r.Some? ==> PathEntries(r.value) == PathEntries(current) + [dir] && NewUserPath(r.value, dir).None?
  {
    var r := NewUserPath(current, dir);
    if r.Some? {
      assert r.value == current + [';'] + dir;
      SplitAround(current, ';', dir);
      SplitNoSep(dir, ';');
      EntriesAppend(Split(current, ';'), [dir]);
      assert Entries([dir]) == [dir];
      EntriesMember(Split(r.value, ';'), dir);
      assert dir in PathEntries(r.value);
    }
  }

  /** A directory written with surrounding white space never matches a (stripped) entry, so it is always appended. */
  lemma UnstrippedDirAppended(current: string, dir: string)
    requires Strip(dir) != dir
    ensures NewUserPath(current, dir).Some?
  {
    var ps := Split(current, ';');
    forall i | 0 <= i < |ps| ensures Strip(ps[i]) != dir {
      StripEnds(ps[i]);
      StripTrimmed(Strip(ps[i]));
    }
  }

  // ---------------------------------------------------------------------
  // model_exists
  // ---------------------------------------------------------------------

  /**
   * An element of the `models` list of `/api/tags`: a record with a string
   * `name`, a record without one (read as `""`), or anything else, on which
   * reading the name raises.
   */
  datatype ModelEntry = Named(name: string) | Unnamed | Malformed

  /** `n.split(":")[0]`: the text before the first `:`, or all of it. */
  function BaseName(n: string): (r: string)
    ensures IsPrefix(r, n) && ':' !in r
    ensures |r| < |n| ==> n[|r|] == ':'
  {
    SplitFirst(n, ':');
    Split(n, ':')[0]
  }

  /** For a name without `:`, a listed name matches it exactly when it is the name itself or the name followed by `:` and a tag. */
  lemma BaseNameMatches(n: string, name: string)
    requires ':' !in name
    ensures BaseName(n) == name <==> n == name || IsPrefix(name + ":", n)
  {
    var b := BaseName(n);
    if IsPrefix(name + ":", n) {
      assert n[..|name| + 1] == name + ":";
      assert b[..|name|] == n[..|name|] == (name + ":")[..|name|] == name;
    }
    if b == name && n != name {
      assert |b| < |n|;
      assert n[..|name| + 1] == name + ":";
    }
  }

  predicate Matches(m: ModelEntry, name: string) {
    match m
    case Named(n) => BaseName(n) == name
    case Unnamed => name == ""
    case Malformed => false
  }

  /** The loop over the listed models: true at the first match; an entry that raises ends the scan with false. */
  function Scan(models: seq<ModelEntry>, name: string): bool {
    if models == [] then false
    else if models[0].Malformed? then false
    else if Matches(models[0], name) then true
    else Scan(models[1..], name)
  }

  /** The scan finds the model exactly when some entry matches and no entry before it raises. */
  lemma {:induction false} ScanFinds(models: seq<ModelEntry>, name: string)
    ensures Scan(models, name) <==>
            exists i :: 0 <= i < |models| && Matches(models[i], name) &&
                        forall j :: 0 <= j < i ==> !models[j].Malformed?
  {
    if models != [] && !models[0].Malformed? && !Matches(models[0], name) {
      ScanFinds(models[1..], name);
      var rest := models[1..];
      if Scan(rest, name) {
        var i :| 0 <= i < |rest| && Matches(rest[i], name) && forall j :: 0 <= j < i ==> !rest[j].Malformed?;
        assert Matches(models[i + 1], name);
        forall j | 0 <= j < i + 1 ensures !models[j].Malformed? {
          if j > 0 { assert models[j] == rest[j - 1]; }
        }
      }
      if exists i :: 0 <= i < |models| && Matches(models[i], name) && forall j :: 0 <= j < i ==> !models[j].Malformed? {
        var i :| 0 <= i < |models| && Matches(models[i], name) && forall j :: 0 <= j < i ==> !models[j].Malformed?;
        assert i > 0;
        assert Matches(rest[i - 1], name);
        forall j | 0 <= j < i - 1 ensures !rest[j].Malformed? {
          assert rest[j] == models[j + 1];
        }
      }
    } else if models != [] && !models[0].Malformed? {
      assert Matches(models[0], name);
    }
  }

  /**
   * `model_exists`: `listing` is the parsed `models` list, or `None` when the
   * request, the JSON decoding or the lookup failed; any failure answers
   * false.
   */
  function ModelExists(listing: Option<seq<ModelEntry>>, name: string): (r: bool)
    ensures listing.None? ==> !r
    ensures listing.Some? ==>
              (r <==> exists i :: 0 <= i < |listing.value| && Matches(listing.value[i], name) &&
                                  forall j :: 0 <= j < i ==> !listing.value[j].Malformed?)
  {
    if listing.None? then false
    else
      ScanFinds(listing.value, name);
      Scan(listing.value, name)
  }

  /** Ollama lists models with a tag (`smollm3-local:latest`); such an entry counts for the bare name. */
  lemma TaggedModelFound(name: string, tag: string)
    requires ':' !in name
    ensures ModelExists(Some([Named(name + ":" + tag)]), name)
  {
    BaseNameMatches(name + ":" + tag, name);
    assert (name + ":" + tag)[..|name| + 1] == name + ":";
  }

  // ---------------------------------------------------------------------
  // wait_for_http's readiness test
  // ---------------------------------------------------------------------

  /** The status test `200 <= status < 500`: any answer short of a server error means the service is up. */
  predicate StatusReady(status: int) {
    200 <= status < 500
  }

  /**
   * One probe: the service answered with a final status (after redirects), or
   * no answer came (refused connection, time-out).
   */
  datatype Probe = Answered(status: int) | Unreachable

  /**
   * The probe as written: `urlopen` raises `HTTPError` for a final status
   * outside 200-299 and the handler treats that like no answer, so the status
   * test only ever sees 2xx.
   */
  function ReadyAsWritten(p: Probe): (r: bool)
    ensures r <==> p.Answered? && 200 <= p.status < 300
  {
    match p
    case Answered(s) => if 200 <= s < 300 then StatusReady(s) else false
    case Unreachable => false
  }

  /** The probe with the status test applied to every answer, errors included. */
  function Ready(p: Probe): (r: bool)
    ensures r <==> p.Answered? && StatusReady(p.status)
  {
    p.Answered? && StatusReady(p.status)
  }

  /** The two agree except on 3xx and 4xx answers, which only `Ready` accepts. */
  lemma ReadyDiffers(p: Probe)
    ensures ReadyAsWritten(p) ==> Ready(p)
    ensures ReadyAsWritten(p) != Ready(p) <==> p.Answered? && 300 <= p.status < 500
  {
  }

  /** A service that answers 404 is never reported ready as written. */
  lemma NotFoundNeverReady()
    ensures !ReadyAsWritten(Answered(404)) && Ready(Answered(404))
  {
  }

  // ---------------------------------------------------------------------
  // The Modelfile
  // ---------------------------------------------------------------------

  const ModelFile: string := "SmolLM3-Q4_K_M.gguf"
  const NumCtx: nat := 8192
  const NumGpu: nat := 8

  /** `max(4, os.cpu_count() or 8)`: an unknown (or zero) count reads as 8. */
  function NumThread(cpuCount: Option<nat>): (r: nat)
    ensures r >= 4
    ensures cpuCount.Some? && cpuCount.value >= 4 ==> r == cpuCount.value
    ensures cpuCount.None? || cpuCount.value == 0 ==> r == 8
    ensures cpuCount.Some? && 0 < cpuCount.value < 4 ==> r == 4
  {
    var n := if cpuCount.Some? && cpuCount.value != 0 then cpuCount.value else 8;
    if n > 4 then n else 4
  }

  /** The five lines of the Modelfile. */
  function ModelfileLines(numThread: nat): seq<string> {
    ["FROM .\\" + ModelFile,
     "PARAMETER num_ctx " + Decimal(NumCtx),
     "PARAMETER num_thread " + Decimal(numThread),
     "PARAMETER num_gpu " + Decimal(NumGpu),
     "PARAMETER temperature 0.3"]
  }

  /** The desired text: the lines and an empty string joined by newlines. */
  function DesiredModelfile(numThread: nat): string {
    Join(ModelfileLines(numThread) + [""], "\n")
  }

  /** A number written in decimal has no line break. */
  lemma DecimalOneLine(n: nat)
    ensures '\n' !in Decimal(n)
  {
    var d := Decimal(n);
    assert forall i :: 0 <= i < |d| ==> d[i] != '\n';
  }

  /** None of the Modelfile lines holds a line break of its own. */
  lemma ModelfileLinesOneLine(numThread: nat)
    ensures forall k :: 0 <= k < |ModelfileLines(numThread)| ==> '\n' !in ModelfileLines(numThread)[k]
  {
    DecimalOneLine(NumCtx);
    DecimalOneLine(numThread);
    DecimalOneLine(NumGpu);
    assert '\n' !in "FROM .\\" && '\n' !in ModelFile;
    assert '\n' !in "PARAMETER num_ctx " && '\n' !in "PARAMETER num_thread ";
    assert '\n' !in "PARAMETER num_gpu " && '\n' !in "PARAMETER temperature 0.3";
  }

  /** The desired text is the five lines, each ended by a newline. */
  lemma DesiredModelfileLines(numThread: nat)
    ensures Split(DesiredModelfile(numThread), '\n') == ModelfileLines(numThread) + [""]
  {
    var ls := ModelfileLines(numThread) + [""];
    ModelfileLinesOneLine(numThread);
    assert forall k :: 0 <= k < |ls| ==> '\n' !in ls[k];
    SplitJoin(ls, '\n');
  }

  /** What is on disk where the Modelfile goes. */
  datatype FileState = Missing | Unreadable | Stored(text: string)

  /** The write flag: write unless the file reads back as exactly the desired text. */
  function NeedsWrite(current: FileState, desired: string): (r: bool)
    ensures r <==> current != Stored(desired)
  {
    !(current.Stored? && current.text == desired)
  }

  /** The models directory's Modelfile, changed in place. */
  class ModelStore {
    var modelfile: FileState

    constructor (modelfile: FileState)
      ensures this.modelfile == modelfile
    {
      this.modelfile := modelfile;
    }

    /**
     * The compare-then-write step of `ensure_smollm3_model`: afterwards the
     * file holds the desired text, and it was written exactly when it did not
     * already.
     */
    method EnsureModelfile(desired: string) returns (wrote: bool)
      modifies this
      ensures modelfile == Stored(desired)
      ensures wrote <==> old(modelfile) != Stored(desired)
    {
      wrote := NeedsWrite(modelfile, desired);
      if wrote {
        modelfile := Stored(desired);
      }
    }
  }
}

=== FILE: strings.dfy ===
/**
 * The handful of Python string operations the installers use, on `string`
 * (= `seq<char>`): `lower`, `replace`, `split`, `join`, `strip`, `rstrip` and
 * decimal formatting of a natural number.
 */
module Strings {

  predicate IsPrefix(p: string, s: string) {
    |p| <= |s| && s[..|p|] == p
  }

  predicate OccursAt(s: string, t: string, i: int) {
    0 <= i <= |s| - |t| && s[i..i + |t|] == t
  }

  /** `t in s` for strings: `t` occurs at some offset of `s`. */
  predicate Contains(s: string, t: string) {
    exists i | 0 <= i <= |s| :: OccursAt(s, t, i)
  }

  // ---------------------------------------------------------------------
  // lower / replace
  // ---------------------------------------------------------------------

  /** `str.lower` on one character; only ASCII letters are folded. */
  function LowerChar(c: char): (r: char)
    ensures 'A' <= c <= 'Z' ==> 'a' <= r <= 'z' && r as int - c as int == 32
    ensures !('A' <= c <= 'Z') ==> r == c
  {
    if 'A' <= c <= 'Z' then (c as int + 32) as char else c
  }

  function Lower(s: string): (r: string)
    ensures |r| == |s|
    ensures forall i :: 0 <= i < |s| ==> r[i] == LowerChar(s[i])
    ensures forall i :: 0 <= i < |r| ==> !('A' <= r[i] <= 'Z')
  {
    if s == [] then [] else [LowerChar(s[0])] + Lower(s[1..])
  }

  /** `s.replace(old, new)` for single characters. */
  function ReplaceChar(s: string, from: char, to: char): (r: string)
    ensures |r| == |s|
    ensures forall i :: 0 <= i < |s| ==> r[i] == (if s[i] == from then to else s[i])
  {
    if s == [] then [] else [if s[0] == from then to else s[0]] + ReplaceChar(s[1..], from, to)
  }

  /** Replacing distributes over concatenation. */
  lemma ReplaceAppend(a: string, b: string, from: char, to: char)
    ensures ReplaceChar(a + b, from, to) == ReplaceChar(a, from, to) + ReplaceChar(b, from, to)
  {
    var ra, rb := ReplaceChar(a, from, to), ReplaceChar(b, from, to);
    var x, y := ReplaceChar(a + b, from, to), ra + rb;
    assert |x| == |y|;
    forall i | 0 <= i < |x| ensures x[i] == y[i] {
      if i < |a| {
        assert (a + b)[i] == a[i] && y[i] == ra[i];
      } else {
        assert (a + b)[i] == b[i - |a|] && y[i] == rb[i - |a|];
      }
    }
  }

  /** After replacing `from` by another character, `from` no longer occurs. */
  lemma ReplaceRemoves(s: string, from: char, to: char)
    requires from != to
    ensures from !in ReplaceChar(s, from, to)
  {
    var r := ReplaceChar(s, from, to);
    assert forall i :: 0 <= i < |r| ==> r[i] != from;
  }

  /** Replacing a character that does not occur changes nothing. */
  lemma ReplaceAbsent(s: string, from: char, to: char)
    requires from !in s
    ensures ReplaceChar(s, from, to) == s
  {
    var r := ReplaceChar(s, from, to);
    assert forall i :: 0 <= i < |s| ==> r[i] == s[i];
  }

  // ---------------------------------------------------------------------
  // split / join
  // ---------------------------------------------------------------------

  /** `s.split(sep)` for a one-character separator: never empty, and no piece holds `sep`. */
  function Split(s: string, sep: char): (r: seq<string>)
    ensures |r| >= 1
    ensures forall k :: 0 <= k < |r| ==> sep !in r[k]
    decreases |s|
  {
    if s == [] then [""]
    else
      var rest := Split(s[1..], sep);
      if s[0] == sep then [""] + rest else [[s[0]] + rest[0]] + rest[1..]
  }

  /** `sep.join(parts)`. */
  function Join(parts: seq<string>, sep: string): (r: string)
    ensures parts != [] ==> IsPrefix(parts[0], r)
  {
    if parts == [] then ""
    else if |parts| == 1 then parts[0]
    else parts[0] + sep + Join(parts[1..], sep)
  }

  /** A character missing from a string is missing from every piece of its split. */
  lemma {:induction false} SplitKeepsOut(s: string, sep: char, c: char)
    requires c !in s
    ensures forall k :: 0 <= k < |Split(s, sep)| ==> c !in Split(s, sep)[k]
    decreases |s|
  {
    if s != [] {
      SplitKeepsOut(s[1..], sep, c);
      var rest := Split(s[1..], sep);
      if s[0] != sep {
        var r := Split(s, sep);
        assert r == [[s[0]] + rest[0]] + rest[1..];
        forall k | 0 <= k < |r| ensures c !in r[k] {
          if k > 0 {
            assert r[k] == rest[k];
          }
        }
      }
    }
  }

  /** A string without the separator splits into itself alone. */
  lemma {:induction false} SplitNoSep(s: string, sep: char)
    requires sep !in s
    ensures Split(s, sep) == [s]
    decreases |s|
  {
    if s != [] {
      SplitNoSep(s[1..], sep);
      assert [s[0]] + s[1..] == s;
    }
  }

  /** A leading separator opens an empty first piece. */
  lemma SplitConsSep(s: string, sep: char)
    ensures Split([sep] + s, sep) == [""] + Split(s, sep)
  {
    assert ([sep] + s)[0] == sep && ([sep] + s)[1..] == s;
  }

  /** Any other leading character opens the first piece. */
  lemma SplitConsOther(c: char, s: string, sep: char)
    requires c != sep
    ensures Split([c] + s, sep) == [[c] + Split(s, sep)[0]] + Split(s, sep)[1..]
  {
    assert ([c] + s)[0] == c && ([c] + s)[1..] == s;
  }

  /** The step of `SplitAround`: putting one more character in front of `a` keeps the two splits apart. */
  lemma SplitAroundStep(c: char, a: string, sep: char, b: string)
    requires Split(a + [sep] + b, sep) == Split(a, sep) + Split(b, sep)
    ensures Split([c] + a + [sep] + b, sep) == Split([c] + a, sep) + Split(b, sep)
  {
    var x := a + [sep] + b;
    assert [c] + a + [sep] + b == [c] + x;
    if c == sep {
      SplitAroundSep(a, x, sep, Split(a, sep), Split(b, sep));
    } else {
      SplitAroundOther(c, a, x, sep, Split(a, sep), Split(b, sep));
    }
  }

  /** The step of `SplitAround` for the separator itself: it opens a new piece. */
  lemma SplitAroundSep(a: string, x: string, sep: char, s: seq<string>, t: seq<string>)
    requires s == Split(a, sep) && Split(x, sep) == s + t
    ensures Split([sep] + x, sep) == Split([sep] + a, sep) + t
  {
    SplitConsSep(x, sep);
    SplitConsSep(a, sep);
    assert [""] + (s + t) == ([""] + s) + t;
  }

  /** The step of `SplitAround` for a character other than the separator: it joins the first piece. */
  lemma SplitAroundOther(c: char, a: string, x: string, sep: char, s: seq<string>, t: seq<string>)
    requires c != sep && s == Split(a, sep) && Split(x, sep) == s + t
    ensures Split([c] + x, sep) == Split([c] + a, sep) + t
  {
    SplitConsOther(c, x, sep);
    SplitConsOther(c, a, sep);
    assert (s + t)[0] == s[0];
    assert (s + t)[1..] == s[1..] + t;
  }

  /** Splitting `a + sep + b` splits `a` and `b` separately. */
  lemma {:induction false} SplitAround(a: string, sep: char, b: string)
    ensures Split(a + [sep] + b, sep) == Split(a, sep) + Split(b, sep)
    decreases |a|
  {
    if a == [] {
      SplitConsSep(b, sep);
      assert a + [sep] + b == [sep] + b;
    } else {
      SplitAround(a[1..], sep, b);
      SplitAroundStep(a[0], a[1..], sep, b);
      assert a == [a[0]] + a[1..];
    }
  }

  /** Splitting pieces joined by the separator, none holding it, gives the pieces back. */
  lemma {:induction false} SplitJoin(ls: seq<string>, sep: char)
    requires |ls| >= 1
    requires forall k :: 0 <= k < |ls| ==> sep !in ls[k]
    ensures Split(Join(ls, [sep]), sep) == ls
    decreases |ls|
  {
    SplitNoSep(ls[0], sep);
    if |ls| > 1 {
      SplitJoin(ls[1..], sep);
      SplitAround(ls[0], sep, Join(ls[1..], [sep]));
      assert ls == [ls[0]] + ls[1..];
    }
  }

  /** The first piece of a split is the text up to the first separator, or all of it. */
  lemma {:induction false} SplitFirst(s: string, sep: char)
    ensures var r := Split(s, sep)[0];
            IsPrefix(r, s) && (|r| < |s| ==> s[|r|] == sep)
    decreases |s|
  {
    if s != [] && s[0] != sep {
      SplitFirst(s[1..], sep);
    }
  }

  /** A text made of `ls`, each line ended by a newline: what a run of `write(line + "\n")` calls leaves in a file. */
  function Lines(ls: seq<string>): (r: string)
    ensures |r| >= |ls|
    ensures ls != [] ==> IsPrefix(ls[0] + "\n", r)
  {
    if ls == [] then "" else ls[0] + "\n" + Lines(ls[1..])
  }

  /** Lines without line breaks of their own split back into themselves, followed by the empty piece after the last newline. */
  lemma {:induction false} SplitLines(ls: seq<string>)
    requires forall k :: 0 <= k < |ls| ==> '\n' !in ls[k]
    ensures Split(Lines(ls), '\n') == ls + [""]
  {
    if ls != [] {
      SplitLines(ls[1..]);
      SplitNoSep(ls[0], '\n');
      SplitAround(ls[0], '\n', Lines(ls[1..]));
      assert Lines(ls) == ls[0] + ['\n'] + Lines(ls[1..]);
      assert ls + [""] == [ls[0]] + (ls[1..] + [""]);
    }
  }

  // ---------------------------------------------------------------------
  // strip / rstrip
  // ---------------------------------------------------------------------

  /** The characters Python's `str.isspace` accepts, which `strip()` removes. */
  predicate IsSpace(c: char) {
    var n := c as int;
    (9 <= n <= 13) || (28 <= n <= 32) || n == 0x85 || n == 0xA0 || n == 0x1680
    || (0x2000 <= n <= 0x200A) || n == 0x2028 || n == 0x2029 || n == 0x202F
    || n == 0x205F || n == 0x3000
  }

  /** `s.lstrip()`. */
  function TrimLeft(s: string): string {
    if s != [] && IsSpace(s[0]) then TrimLeft(s[1..]) else s
  }

  /** `s.rstrip()`. */
  function TrimRight(s: string): string {
    if s != [] && IsSpace(s[|s| - 1]) then TrimRight(s[..|s| - 1]) else s
  }

  /** `s.strip()`. */
  function Strip(s: string): string {
    TrimRight(TrimLeft(s))
  }

  /** What `lstrip` leaves does not start with white space. */
  lemma {:induction false} TrimLeftStart(s: string)
    ensures TrimLeft(s) == [] || !IsSpace(TrimLeft(s)[0])
    decreases |s|
  {
    if s != [] && IsSpace(s[0]) {
      TrimLeftStart(s[1..]);
    }
  }

  /** What `rstrip` leaves is a prefix of the text that does not end with white space. */
  lemma {:induction false} TrimRightEnd(s: string)
    ensures IsPrefix(TrimRight(s), s)
    ensures TrimRight(s) == [] || !IsSpace(TrimRight(s)[|TrimRight(s)| - 1])
    decreases |s|
  {
    if s != [] && IsSpace(s[|s| - 1]) {
      TrimRightEnd(s[..|s| - 1]);
    }
  }

  /** What `strip` leaves neither starts nor ends with white space. */
  lemma StripEnds(s: string)
    ensures Strip(s) == [] || (!IsSpace(Strip(s)[0]) && !IsSpace(Strip(s)[|Strip(s)| - 1]))
  {
    var l := TrimLeft(s);
    TrimLeftStart(s);
    TrimRightEnd(l);
    var r := TrimRight(l);
    if r != [] {
      assert r[0] == l[0];
    }
  }

  /** A string that neither starts nor ends with white space is its own strip. */
  lemma StripTrimmed(s: string)
    requires s == [] || (!IsSpace(s[0]) && !IsSpace(s[|s| - 1]))
    ensures Strip(s) == s
  {
  }

  /** `s.rstrip(c)`: drops every trailing `c`. */
  function RStrip(s: string, c: char): (r: string)
    ensures IsPrefix(r, s)
    ensures r == [] || r[|r| - 1] != c
    ensures forall i :: |r| <= i < |s| ==> s[i] == c
  {
    if s != [] && s[|s| - 1] == c then RStrip(s[..|s| - 1], c) else s
  }

  // ---------------------------------------------------------------------
  // decimal formatting
  // ---------------------------------------------------------------------

  function DigitChar(d: nat): (c: char)
    requires d < 10
    ensures '0' <= c <= '9'
  {
    ('0' as int + d) as char
  }

  /** `str(n)` for a natural number: a non-empty run of decimal digits without a leading zero. */
  function Decimal(n: nat): (r: string)
    ensures |r| >= 1
    ensures forall i :: 0 <= i < |r| ==> '0' <= r[i] <= '9'
    ensures |r| > 1 ==> r[0] != '0'
  {
    if n < 10 then [DigitChar(n)] else Decimal(n / 10) + [DigitChar(n % 10)]
  }

  /** `int(s)` for a non-empty run of decimal digits. */
  function DecimalValue(s: string): nat
    requires forall i :: 0 <= i < |s| ==> '0' <= s[i] <= '9'
  {
    if s == [] then 0 else DecimalValue(s[..|s| - 1]) * 10 + (s[|s| - 1] as int - '0' as int)
  }

  /** Reading the decimal text of `n` back gives `n`. */
  lemma {:induction false} DecimalRoundTrip(n: nat)
    ensures DecimalValue(Decimal(n)) == n
  {
    if n >= 10 {
      var hi := Decimal(n / 10);
      DecimalRoundTrip(n / 10);
      assert (hi + [DigitChar(n % 10)])[..|hi|] == hi;
    }
  }
}

=== FILE: tomex_installer.dfy ===
/**
 * The TomEx installer: the `start-tomex.cmd` script it writes and the
 * `--wsl` argument it insists on.
 */
module TomexInstaller {
  import opened Wrappers
  import opened Strings

  const StartScriptName: string := "start-tomex.cmd"

  const RequiredMessage: string := "--wsl <distro> is required"

  /** The first line: no command echo. */
  const EchoOff: string := "@echo off"

  /** What the first `wsl` call runs in the distro: the Ollama server. */
  const OllamaCommand: string := " sh -lc \"ollama serve\""

  /** What the second `wsl` call runs in the distro: Open WebUI on port 3000, pointed at Ollama on port 11434. */
  const WebUiCommand: string :=
    " sh -lc \"env OLLAMA_BASE_URL=" + "\\\"http://localhost:11434\\\" "
    + "~/.open-webui-venv/bin/open-webui " + "serve --host 0.0.0.0 --port 3000\""

  /** The line that starts `ollama serve` inside the distro in a console of its own. */
  function OllamaLine(distro: string): string {
    "start \"\" " + ("wsl -d " + distro + OllamaCommand)
  }

  /** The line that runs Open WebUI inside the same distro. */
  function WebUiLine(distro: string): string {
    "wsl -d " + distro + WebUiCommand
  }

  /** The text `write_start_script` writes: the three lines, each ended by a newline. */
  function StartScript(distro: string): (r: string)
    ensures IsPrefix(EchoOff + "\n", r)
  {
    Lines([EchoOff, OllamaLine(distro), WebUiLine(distro)])
  }

  /** `wsl -d <distro>` followed by text that starts with a space holds `wsl -d <distro> ` at its start. */
  lemma RunsInDistro(distro: string, rest: string)
    requires |rest| > 0 && rest[0] == ' '
    ensures OccursAt("wsl -d " + distro + rest, "wsl -d " + distro + " ", 0)
  {
    var k, t := "wsl -d " + distro, "wsl -d " + distro + rest;
    assert t[..|k| + 1] == k + " " by {
      assert t[..|k|] == k;
      assert t[|k|] == rest[0];
    }
  }

  /** The Ollama line has no line break of its own and runs `wsl -d <distro>` after `start ""`. */
  lemma OllamaLineShape(distro: string)
    requires '\n' !in distro
    ensures '\n' !in OllamaLine(distro)
    ensures OccursAt(OllamaLine(distro), "wsl -d " + distro + " ", 9)
  {
    var lead := "start \"\" ";
    assert '\n' !in lead && '\n' !in "wsl -d " && '\n' !in OllamaCommand;
    RunsInDistro(distro, OllamaCommand);
    var key, t := "wsl -d " + distro + " ", "wsl -d " + distro + OllamaCommand;
    assert |lead| == 9 && OllamaLine(distro) == lead + t;
    assert (lead + t)[9..] == t;
    assert t[..|key|] == key;
  }

  /** The Open WebUI command has no line break and starts with a space. */
  lemma WebUiCommandOneLine()
    ensures '\n' !in WebUiCommand && WebUiCommand[0] == ' '
  {
    var env, url := " sh -lc \"env OLLAMA_BASE_URL=", "\\\"http://localhost:11434\\\" ";
    var bin, args := "~/.open-webui-venv/bin/open-webui ", "serve --host 0.0.0.0 --port 3000\"";
    OneLine(env);
    OneLine(url);
    OneLine(bin);
    OneLine(args);
    assert WebUiCommand == env + url + bin + args;
  }

  /** A short literal without a line break, checked character by character. */
  lemma OneLine(s: string)
    requires forall i :: 0 <= i < |s| ==> s[i] != '\n'
    ensures '\n' !in s
  {
  }

  /** The Open WebUI line has no line break of its own and starts with `wsl -d <distro>`. */
  lemma WebUiLineShape(distro: string)
    requires '\n' !in distro
    ensures '\n' !in WebUiLine(distro)
    ensures OccursAt(WebUiLine(distro), "wsl -d " + distro + " ", 0)
  {
    WebUiCommandOneLine();
    assert '\n' !in "wsl -d ";
    RunsInDistro(distro, WebUiCommand);
  }

  /**
   * For a distro name without a line break the script is exactly three lines,
   * the first `@echo off`, and both the Ollama line and the Open WebUI line
   * run `wsl -d <distro>`.
   */
  lemma StartScriptShape(distro: string)
    requires '\n' !in distro
    ensures var ls := Split(StartScript(distro), '\n');
            |ls| == 4 && ls[3] == "" && ls[0] == EchoOff &&
            Contains(ls[1], "wsl -d " + distro + " ") && Contains(ls[2], "wsl -d " + distro + " ")
  {
    OllamaLineShape(distro);
    WebUiLineShape(distro);
    assert '\n' !in EchoOff;
    SplitLines([EchoOff, OllamaLine(distro), WebUiLine(distro)]);
  }

  /** A file named by its directory and its name. */
  datatype FilePath = FilePath(dir: string, name: string)

  /** Where the script goes: `base / start-tomex.cmd`. */
  function ScriptPath(base: string): FilePath {
    FilePath(base, StartScriptName)
  }

  /** The directories that exist and the files with their text. */
  datatype Disk = Disk(dirs: set<string>, files: map<FilePath, string>)

  /**
   * `base.mkdir(parents=True, exist_ok=True)` followed by `write_text` on the
   * script path: `base` exists afterwards and the script path holds `text`,
   * whether it existed before or not; nothing else changes.
   */
  function Store(d: Disk, base: string, text: string): (r: (Disk, FilePath))
    ensures r.1 == ScriptPath(base)
    ensures r.0.dirs == d.dirs + {base}
    ensures r.1 in r.0.files && r.0.files[r.1] == text
    ensures r.0.files.Keys == d.files.Keys + {r.1}
    ensures forall f :: f != r.1 && f in d.files ==> r.0.files[f] == d.files[f]
  {
    var path := ScriptPath(base);
    (Disk(d.dirs + {base}, d.files[path := text]), path)
  }

  /** `write_start_script`: the start script for `distro`, stored under `base`. */
  function WriteStartScript(d: Disk, base: string, distro: string): (r: (Disk, FilePath))
    ensures r.1 == ScriptPath(base) && r.1 in r.0.files && r.0.files[r.1] == StartScript(distro)
    ensures r.0.dirs == d.dirs + {base} && r.0.files.Keys == d.files.Keys + {r.1}
    ensures forall f :: f in d.files && f != r.1 ==> r.0.files[f] == d.files[f]
  {
    Store(d, base, StartScript(distro))
  }

  /** Writing again with the same distro leaves the disk as the first write left it. */
  lemma RewriteIsIdempotent(d: Disk, base: string, distro: string)
    ensures var once := WriteStartScript(d, base, distro);
            WriteStartScript(once.0, base, distro) == once
  {
    var path := ScriptPath(base);
    var text := StartScript(distro);
    assert d.files[path := text][path := text] == d.files[path := text];
    assert d.dirs + {base} + {base} == d.dirs + {base};
  }

  /** How `main` ends: it exits with a message, or it reports the script it wrote. */
  datatype Outcome = Exit(message: string) | Wrote(path: FilePath)

  /**
   * `main` after argument parsing: a missing or empty `--wsl` value exits with
   * the message and writes nothing; otherwise the script is written under
   * `base`.
   */
  function Install(d: Disk, wsl: Option<string>, base: string): (r: (Disk, Outcome))
    ensures r.1.Exit? <==> wsl.None? || wsl.value == ""
    ensures r.1.Exit? ==> r == (d, Exit(RequiredMessage))
    ensures r.1.Wrote? ==> r.1.path == ScriptPath(base) && r.1.path in r.0.files && r.0.files[r.1.path] == StartScript(wsl.value)
    ensures r.1.Wrote? ==> r.0.dirs == d.dirs + {base} && r.0.files.Keys == d.files.Keys + {r.1.path}
    ensures r.1.Wrote? ==> forall f :: f in d.files && f != r.1.path ==> r.0.files[f] == d.files[f]
  {
    if wsl.None? || wsl.value == "" then (d, Exit(RequiredMessage))
    else
      var w := WriteStartScript(d, base, wsl.value);
      (w.0, Wrote(w.1))
  }

  /** The installer's home directory on disk, changed in place. */
  class Home {
    var dirs: set<string>
    var files: map<FilePath, string>

    constructor (d: Disk)
      ensures State() == d
    {
      dirs, files := d.dirs, d.files;
    }

    function State(): Disk
      reads this
    {
      Disk(dirs, files)
    }

    /** `write_start_script`, in place: the disk and the path are those of `WriteStartScript`. */
    method WriteScript(base: string, distro: string) returns (path: FilePath)
      modifies this
      ensures (State(), path) == WriteStartScript(old(State()), base, distro)
    {
      path := ScriptPath(base);
      dirs := dirs + {base};
      files := files[path := StartScript(distro)];
    }

    /** `main`, in place: the disk and the outcome are those of `Install`. */
    method Run(wsl: Option<string>, base: string) returns (outcome: Outcome)
      modifies this
      ensures (State(), outcome) == Install(old(State()), wsl, base)
    {
      if wsl.None? || wsl.value == "" {
        return Exit(RequiredMessage);
      }
      var path := WriteScript(base, wsl.value);
      return Wrote(path);
    }
  }
}

=== FILE: unattended.dfy ===
/**
 * What the unattended installer script adds to the shared helpers: its
 * `uninstall` routine, which undoes the autostart registrations, and the
 * platform guard in front of `main`.
 */
module Unattended {
  import opened Strings
  import opened Autostart

  /** The task names the installer registers: the Ollama server, Open WebUI in Docker, Open WebUI from pip. */
  const OllamaTask: string := "Ollama Serve"
  const DockerTask: string := "Open WebUI (Docker)"
  const PipTask: string := "Open WebUI"
  const InstallerTasks: seq<string> := [OllamaTask, DockerTask, PipTask]

  /** The scheduled tasks `uninstall` deletes. */
  const UninstallTasks: seq<string> := ["Ollama Serve", "Open WebUI (Docker)", "Open WebUI"]

  /** The names `uninstall` derives Startup-folder files from. */
  const UninstallStartupNames: seq<string> := ["Ollama Serve", "Open WebUI (Docker)", "Open WebUI"]

  /** The Startup-folder files derived from `names` by the registrar's own rule. */
  function StartupFiles(names: seq<string>): (r: set<string>)
    ensures forall n :: n in names ==> StartupCmdName(n) in r
    ensures forall f :: f in r ==> exists n :: n in names && f == StartupCmdName(n)
  {
    set n | n in names :: StartupCmdName(n)
  }

  /**
   * `uninstall`'s effect on the autostart tables: the named tasks are gone,
   * the Startup files derived from the names are gone when there is a Startup
   * folder, the install root is removed; every other task and file is kept.
   */
  function RemoveAutostart(h: Host, hasStartupFolder: bool, taskNames: seq<string>, startupNames: seq<string>): (r: Host)
    ensures r.baseFiles == map[]
    ensures forall t :: t in r.tasks <==> t in h.tasks && t !in taskNames
    ensures forall t :: t in r.tasks ==> r.tasks[t] == h.tasks[t]
    ensures forall f :: f in r.startupFiles <==>
              f in h.startupFiles && !(hasStartupFolder && f in StartupFiles(startupNames))
    ensures forall f :: f in r.startupFiles ==> r.startupFiles[f] == h.startupFiles[f]
  {
    Host(map[],
         if hasStartupFolder then h.startupFiles - StartupFiles(startupNames) else h.startupFiles,
         h.tasks - set t | t in taskNames)
  }

  /** One registration, as the installer makes it: the task name, its command and directory, and whether `schtasks` succeeded. */
  datatype Registration = Registration(name: string, command: string, workdir: Wrappers.Option<string>, schtasksOk: bool)

  /** The tables after a run of registrations, in order: registering never removes a wrapper, a Startup file or a task. */
  function RegisterAll(h: Host, hasStartupFolder: bool, regs: seq<Registration>): (r: Host)
    ensures h.baseFiles.Keys <= r.baseFiles.Keys && h.startupFiles.Keys <= r.startupFiles.Keys && h.tasks.Keys <= r.tasks.Keys
    decreases |regs|
  {
    if regs == [] then h
    else
      var g := regs[0];
      RegisterAll(Register(h, hasStartupFolder, g.name, g.command, g.workdir, g.schtasksOk).0, hasStartupFolder, regs[1..])
  }

  /** Removing after registering a name that the removal covers is the same as removing alone. */
  lemma RemoveAfterRegister(h: Host, hasStartupFolder: bool, g: Registration, taskNames: seq<string>, startupNames: seq<string>)
    requires g.name in taskNames && g.name in startupNames
    ensures var h' := Register(h, hasStartupFolder, g.name, g.command, g.workdir, g.schtasksOk).0;
            RemoveAutostart(h', hasStartupFolder, taskNames, startupNames)
            == RemoveAutostart(h, hasStartupFolder, taskNames, startupNames)
  {
    var h' := Register(h, hasStartupFolder, g.name, g.command, g.workdir, g.schtasksOk).0;
    var a := RemoveAutostart(h', hasStartupFolder, taskNames, startupNames);
    var b := RemoveAutostart(h, hasStartupFolder, taskNames, startupNames);
    assert StartupCmdName(g.name) in StartupFiles(startupNames);
    assert a.tasks == b.tasks;
    assert a.startupFiles == b.startupFiles;
  }

  /**
   * `uninstall` removes exactly what the installer's registrations add: after
   * any run of registrations under the installer's task names, whatever each
   * `schtasks` call did, uninstalling leaves the same tables as uninstalling
   * without them.
   */
  lemma {:induction false} UninstallUndoesInstall(h: Host, hasStartupFolder: bool, regs: seq<Registration>)
    requires forall i :: 0 <= i < |regs| ==> regs[i].name in InstallerTasks
    ensures RemoveAutostart(RegisterAll(h, hasStartupFolder, regs), hasStartupFolder, UninstallTasks, UninstallStartupNames)
            == RemoveAutostart(h, hasStartupFolder, UninstallTasks, UninstallStartupNames)
    decreases |regs|
  {
    if regs != [] {
      var g := regs[0];
      var h' := Register(h, hasStartupFolder, g.name, g.command, g.workdir, g.schtasksOk).0;
      UninstallUndoesInstall(h', hasStartupFolder, regs[1..]);
      RemoveAfterRegister(h, hasStartupFolder, g, UninstallTasks, UninstallStartupNames);
    }
  }

  /** The loop step of `uninstall`'s Startup-file removal: one more derived name is removed. */
  lemma RemoveOneMore(m: map<string, string>, names: seq<string>, k: nat, before: map<string, string>, after: map<string, string>)
    requires k < |names|
    requires before == m - StartupFiles(names[..k])
    requires var p := StartupCmdName(names[k]);
             if p in before then after == before - {p} else after == before
    ensures after == m - StartupFiles(names[..k + 1])
  {
    var p := StartupCmdName(names[k]);
    assert names[..k + 1] == names[..k] + [names[k]];
    assert StartupFiles(names[..k + 1]) == StartupFiles(names[..k]) + {p};
  }

  /** The loop step of `uninstall`'s task deletion: one more listed task is gone. */
  lemma RemoveTaskOneMore(m: map<string, string>, done: seq<string>, next: string, before: map<string, string>, after: map<string, string>)
    requires before == m - set t | t in done
    requires after == before - {next}
    ensures after == m - set t | t in done + [next]
  {
    assert (set t | t in done + [next]) == (set t | t in done) + {next};
  }

  /** The task loop of `uninstall`: `schtasks /Delete` for each listed task; the Startup files and the install root are untouched. */
  method DeleteTasks(reg: Registrar, names: seq<string>)
    modifies reg`tasks
    ensures reg.tasks == old(reg.tasks) - set t | t in names
  {
    var i := 0;
    assert names[..0] == [];
    while i < |names|
      invariant i <= |names|
      invariant reg.tasks == old(reg.tasks) - set t | t in names[..i]
    {
      ghost var before := reg.tasks;
      reg.tasks := reg.tasks - {names[i]};
      RemoveTaskOneMore(old(reg.tasks), names[..i], names[i], before, reg.tasks);
      assert names[..i + 1] == names[..i] + [names[i]];
      i := i + 1;
    }
    assert names[..i] == names;
  }

  /** The Startup-file loop of `uninstall`: each derived Startup file that exists is unlinked; the tasks and the install root are untouched. */
  method DeleteStartupFiles(reg: Registrar, names: seq<string>)
    modifies reg`startupFiles
    ensures reg.startupFiles == old(reg.startupFiles) - StartupFiles(names)
  {
    var k := 0;
    assert names[..0] == [];
    while k < |names|
      invariant k <= |names|
      invariant reg.startupFiles == old(reg.startupFiles) - StartupFiles(names[..k])
    {
      var p := StartupCmdName(names[k]);
      ghost var before := reg.startupFiles;
      if p in reg.startupFiles {
        reg.startupFiles := reg.startupFiles - {p};
      }
      RemoveOneMore(old(reg.startupFiles), names, k, before, reg.startupFiles);
      k := k + 1;
    }
    assert names[..k] == names;
  }

  /**
   * `uninstall`, in place: deletes each named task, then (when there is a
   * Startup folder) each derived Startup file that exists, then the install
   * root.
   */
  method Uninstall(reg: Registrar)
    modifies reg
    ensures reg.State() == RemoveAutostart(old(reg.State()), reg.hasStartupFolder, UninstallTasks, UninstallStartupNames)
  {
    DeleteTasks(reg, UninstallTasks);
    if reg.hasStartupFolder {
      DeleteStartupFiles(reg, UninstallStartupNames);
    }
    reg.baseFiles := map[];
  }

  // ---------------------------------------------------------------------
  // The platform guard
  // ---------------------------------------------------------------------

  /** What the script does when started: refuse, uninstall, or install. */
  datatype Entry =
    | Refuse(message: string, exitCode: int)
    | RunUninstall
    | RunInstall

  const NotWindowsMessage: string := "This script is intended for Windows 11."

  /**
   * The entry point: on a platform whose lower-cased name is not `windows`
   * the script prints the refusal and exits with status 1, before any other
   * work; otherwise `--uninstall` anywhere in the arguments selects the
   * uninstaller.
   */
  function EntryPoint(system: string, argv: seq<string>): (r: Entry)
    ensures r.Refuse? <==> Lower(system) != "windows"
    ensures r.Refuse? ==> r.exitCode == 1 && r.message == NotWindowsMessage
    ensures r == RunUninstall <==> Lower(system) == "windows" && "--uninstall" in argv
  {
    if Lower(system) != "windows" then Refuse(NotWindowsMessage, 1)
    else if "--uninstall" in argv then RunUninstall
    else RunInstall
  }

  /** Started on Linux, whatever the arguments, the script exits 1 with the Windows 11 message. */
  lemma LinuxRefused(argv: seq<string>)
    ensures EntryPoint("Linux", argv) == Refuse("This script is intended for Windows 11.", 1)
  {
    assert |Lower("Linux")| != |"windows"|;
  }

  /** `platform.system()` on Windows answers `Windows`, which the guard lets through. */
  lemma WindowsAccepted(argv: seq<string>)
    ensures !EntryPoint("Windows", argv).Refuse?
  {
    var w, l := "Windows", Lower("Windows");
    forall i | 0 <= i < |w| ensures l[i] == "windows"[i] {
      assert l[i] == LowerChar(w[i]);
    }
  }
}

=== FILE: wrappers.dfy ===
/** Optional values, used wherever the source has `None` or an absent file. */
module Wrappers {

  datatype Option<+T> = None | Some(value: T)
}

=== FILE: wsl_workspace.dfy ===
/**
 * The WSL workspace helper: the Windows-to-WSL path conversion and the
 * action dispatch of its command line.
 *
 * The helper runs on the Windows side (it drives `wsl.exe`), so `Path` is a
 * Windows path: `\` and `/` both separate components, repeated separators and
 * `.` components vanish, a second character `:` makes the first two the
 * drive, and the text form joins the components with `\`.
 */
module WslWorkspace {
  import opened Wrappers
  import opened Strings

  // ---------------------------------------------------------------------
  // Windows paths
  // ---------------------------------------------------------------------

  predicate IsSep(c: char) {
    c == '\\' || c == '/'
  }

  /** A parsed path: drive (`"C:"` or empty), whether a root separator follows it, and the components. */
  datatype WinPath = WinPath(drive: string, rooted: bool, parts: seq<string>)

  /** The pieces that are real components: empty pieces (repeated separators) and `.` are dropped, every other piece is kept. */
  function Keep(pieces: seq<string>): (r: seq<string>)
    ensures |r| <= |pieces|
    ensures forall i :: 0 <= i < |r| ==> r[i] != "" && r[i] != "."
    ensures forall i :: 0 <= i < |r| ==> r[i] in pieces
    ensures forall p :: p in pieces && p != "" && p != "." ==> p in r
  {
    if pieces == [] then []
    else if pieces[0] == "" || pieces[0] == "." then Keep(pieces[1..])
    else [pieces[0]] + Keep(pieces[1..])
  }

  /** Keeping is done piece by piece, in order: it distributes over concatenation. */
  lemma {:induction false} KeepAppend(a: seq<string>, b: seq<string>)
    ensures Keep(a + b) == Keep(a) + Keep(b)
    decreases |a|
  {
    if a == [] {
      assert a + b == b;
    } else {
      KeepAppend(a[1..], b);
      var ab := a + b;
      assert ab[0] == a[0] && ab[1..] == a[1..] + b;
      if a[0] == "" || a[0] == "." {
        assert Keep(ab) == Keep(a[1..] + b);
      } else {
        assert Keep(ab) == [a[0]] + Keep(a[1..] + b);
      }
    }
  }

  /** The components of a path text without its anchor. */
  function Components(s: string): (r: seq<string>)
    ensures forall i :: 0 <= i < |r| ==> r[i] != "" && r[i] != "." && '\\' !in r[i] && '/' !in r[i]
  {
    var t := ReplaceChar(s, '/', '\\');
    ReplaceRemoves(s, '/', '\\');
    SplitKeepsOut(t, '\\', '/');
    Keep(Split(t, '\\'))
  }

  /** A path that starts with two separators names a network share (UNC); those are not parsed here. */
  predicate IsUnc(s: string) {
    |s| >= 2 && IsSep(s[0]) && IsSep(s[1])
  }

  /** `Path(s)` for a Windows path that is not a UNC path. */
  function ParseWindowsPath(s: string): (p: WinPath)
    requires !IsUnc(s)
    ensures p.drive == "" || (|s| >= 2 && p.drive == s[..2] && p.drive[1] == ':')
    ensures p.rooted <==> (p.drive == "" && |s| > 0 && IsSep(s[0])) || (p.drive != "" && |s| > 2 && IsSep(s[2]))
    ensures p.drive != "" <==> |s| >= 2 && !IsSep(s[0]) && s[1] == ':'
    ensures p.parts == Components(if p.drive != "" then s[2..] else s)
  {
    if |s| > 0 && IsSep(s[0]) then WinPath("", true, Components(s))
    else if |s| >= 2 && s[1] == ':' then WinPath(s[..2], |s| > 2 && IsSep(s[2]), Components(s[2..]))
    else WinPath("", false, Components(s))
  }

  /** `str(p)`: drive, `\` when rooted, the components joined by `\`; `.` when all three are empty. */
  function Str(p: WinPath): (r: string)
    ensures r != ""
    ensures p.drive == "" && p.rooted ==> r == "\\" + Join(p.parts, "\\")
  {
    var t := p.drive + (if p.rooted then "\\" else "") + Join(p.parts, "\\");
    if t == "" then "." else t
  }

  // ---------------------------------------------------------------------
  // _to_wsl_path
  // ---------------------------------------------------------------------

  /** Stripping the `:` of a drive `X:` leaves the letter, and lower-casing it lowers that letter. */
  lemma DriveLetter(drive: string)
    requires |drive| == 2 && drive[1] == ':' && drive[0] != ':'
    ensures Lower(RStrip(drive, ':')) == [LowerChar(drive[0])]
  {
    assert drive[..1] == [drive[0]];
    assert RStrip(drive, ':') == RStrip([drive[0]], ':') == [drive[0]];
  }

  /** The WSL mount point of a drive: `/mnt/` and the drive letter, lower-cased. */
  function MountPoint(drive: string): (r: string)
    ensures IsPrefix("/mnt/", r)
    ensures forall i :: 5 <= i < |r| ==> !('A' <= r[i] <= 'Z')
    ensures |r| > 5 ==> r[|r| - 1] != ':'
    ensures |drive| == 2 && drive[1] == ':' && drive[0] != ':' ==> r == "/mnt/" + [LowerChar(drive[0])]
  {
    var r := "/mnt/" + Lower(RStrip(drive, ':'));
    if |drive| == 2 && drive[1] == ':' && drive[0] != ':' then DriveLetter(drive); r else r
  }

  /**
   * `_to_wsl_path` as written: a path with a drive becomes the mount point,
   * `/`, and the components joined by `/`; any other path is `str(Path(path))`,
   * which on Windows turns every `/` into `\`.
   */
  function ToWslPathAsWritten(path: string): (r: string)
    requires !IsUnc(path)
    ensures ParseWindowsPath(path).drive != "" ==> IsPrefix(MountPoint(ParseWindowsPath(path).drive) + "/", r)
    ensures ParseWindowsPath(path).drive == "" ==> '/' !in r
  {
    var p := ParseWindowsPath(path);
    NotInJoin(p.parts, '\\', '/');
    if p.drive != "" then MountPoint(p.drive) + "/" + Join(p.parts, "/")
    else Str(p)
  }

  /**
   * `_to_wsl_path` as its documentation states it: drive paths convert as
   * above; a path without a drive is returned unchanged.
   */
  function ToWslPath(path: string): (r: string)
    requires !IsUnc(path)
    ensures ParseWindowsPath(path).drive == "" ==> r == path
    ensures ParseWindowsPath(path).drive != "" ==> r == ToWslPathAsWritten(path)
  {
    var p := ParseWindowsPath(path);
    if p.drive != "" then MountPoint(p.drive) + "/" + Join(p.parts, "/")
    else path
  }

  /** Components suitable to be written back: non-empty, not `.`, no separator. */
  predicate PlainParts(parts: seq<string>) {
    forall i :: 0 <= i < |parts| ==> parts[i] != "" && parts[i] != "." && '\\' !in parts[i] && '/' !in parts[i]
  }

  /** The text between separators: pieces that hold no separator, though they may be empty or `.`. */
  predicate SepFree(pieces: seq<string>) {
    forall i :: 0 <= i < |pieces| ==> '\\' !in pieces[i] && '/' !in pieces[i]
  }

  lemma {:induction false} KeepPlain(parts: seq<string>)
    requires PlainParts(parts)
    ensures Keep(parts) == parts
  {
    if parts != [] {
      KeepPlain(parts[1..]);
    }
  }

  /** A character that is neither the separator nor in any part is not in the joined text. */
  lemma {:induction false} NotInJoin(parts: seq<string>, sep: char, c: char)
    requires c != sep
    requires forall i :: 0 <= i < |parts| ==> c !in parts[i]
    ensures c !in Join(parts, [sep])
  {
    if |parts| > 1 {
      NotInJoin(parts[1..], sep, c);
    }
  }

  /** Plain parts joined by `\` split back into themselves (one empty piece when there are none). */
  lemma SplitOfJoin(parts: seq<string>)
    requires PlainParts(parts)
    ensures Split(Join(parts, "\\"), '\\') == if parts == [] then [""] else parts
  {
    if parts != [] {
      SplitJoin(parts, '\\');
    }
  }

  /** Writing plain parts with `\` between them and reading them back gives the same parts. */
  lemma ComponentsOfJoin(parts: seq<string>, lead: string)
    requires PlainParts(parts)
    requires lead == "" || lead == "\\"
    ensures Components(lead + Join(parts, "\\")) == parts
  {
    var j := Join(parts, "\\");
    var t := lead + j;
    NotInJoin(parts, '\\', '/');
    ReplaceAbsent(t, '/', '\\');
    KeepPlain(parts);
    var pieces := if parts == [] then [""] else parts;
    SplitOfJoin(parts);
    assert Keep(pieces) == parts;
    assert Components(t) == Keep(Split(t, '\\'));
    if lead == "\\" {
      KeepRooted(j, pieces);
    } else {
      assert t == j;
    }
  }

  /** A leading `\` adds one empty piece in front, which `Keep` drops. */
  lemma KeepRooted(j: string, pieces: seq<string>)
    requires Split(j, '\\') == pieces
    ensures Keep(Split("\\" + j, '\\')) == Keep(pieces)
  {
    SplitAround("", '\\', j);
    assert "\\" + j == "" + ['\\'] + j;
    var all := [""] + pieces;
    assert all[0] == "" && all[1..] == pieces;
  }

  /** Pieces written after a root `\` and read back: the empty and `.` pieces vanish, the rest stay in order. */
  lemma ComponentsOfRootedJoin(pieces: seq<string>)
    requires SepFree(pieces)
    ensures Components("\\" + Join(pieces, "\\")) == Keep(pieces)
  {
    var j := Join(pieces, "\\");
    var t := "\\" + j;
    NotInJoin(pieces, '\\', '/');
    assert '/' !in t;
    ReplaceAbsent(t, '/', '\\');
    assert Components(t) == Keep(Split(t, '\\'));
    if pieces == [] {
      assert Split(j, '\\') == [""];
      KeepRooted(j, [""]);
    } else {
      SplitJoin(pieces, '\\');
      KeepRooted(j, pieces);
    }
  }

  /**
   * A rooted drive path `X:\a\b...` maps to `/mnt/x/a/b...`: the drive letter
   * lower-cased without its colon, then the components in their order,
   * joined by `/`; repeated separators and `.` pieces vanish on the way.
   */
  lemma DrivePathMapsToMount(d: char, pieces: seq<string>)
    requires !IsSep(d) && d != ':'
    requires SepFree(pieces)
    ensures ToWslPathAsWritten([d, ':', '\\'] + Join(pieces, "\\"))
            == "/mnt/" + [LowerChar(d)] + "/" + Join(Keep(pieces), "/")
    ensures PlainParts(pieces) ==>
              ToWslPathAsWritten([d, ':', '\\'] + Join(pieces, "\\")) == "/mnt/" + [LowerChar(d)] + "/" + Join(pieces, "/")
  {
    var s := [d, ':', '\\'] + Join(pieces, "\\");
    assert s[2..] == "\\" + Join(pieces, "\\");
    ComponentsOfRootedJoin(pieces);
    var p := ParseWindowsPath(s);
    assert p.drive == [d, ':'] && p.parts == Keep(pieces);
    assert MountPoint([d, ':']) == "/mnt/" + [LowerChar(d)];
    if PlainParts(pieces) {
      KeepPlain(pieces);
    }
  }

  /**
   * As written, a POSIX path is not returned unchanged: `/a/b...` comes back
   * as `\a\b...`, which `cd` inside WSL cannot use.
   */
  lemma PosixPathMangled(parts: seq<string>)
    requires PlainParts(parts) && parts != []
    ensures ToWslPathAsWritten("/" + Join(parts, "/")) == "\\" + Join(parts, "\\")
    ensures ToWslPathAsWritten("/" + Join(parts, "/")) != "/" + Join(parts, "/")
    ensures ToWslPath("/" + Join(parts, "/")) == "/" + Join(parts, "/")
  {
    var s := "/" + Join(parts, "/");
    var x := "\\" + Join(parts, "\\");
    ReplaceJoin(parts);
    ComponentsOfJoin(parts, "\\");
    NotInJoin(parts, '\\', '/');
    ReplaceAbsent(x, '/', '\\');
    assert Components(s) == Keep(Split(x, '\\')) == Components(x) == parts;
    assert ParseWindowsPath(s) == WinPath("", true, parts);
    assert x[0] != s[0];
  }

  /** One step of `ReplaceJoinPlain`: a first part without `/`, then `/` and a tail already converted. */
  lemma ReplaceJoinStep(first: string, rest: string, rest': string)
    requires '/' !in first
    requires ReplaceChar(rest, '/', '\\') == rest'
    ensures ReplaceChar(first + ("/" + rest), '/', '\\') == first + ("\\" + rest')
  {
    ReplaceAbsent(first, '/', '\\');
    ReplaceAppend("/", rest, '/', '\\');
    assert ReplaceChar("/", '/', '\\') == "\\";
    ReplaceAppend(first, "/" + rest, '/', '\\');
  }

  /** Replacing `/` by `\` in plain parts joined by `/` gives them joined by `\`. */
  lemma {:induction false} ReplaceJoinPlain(parts: seq<string>)
    requires PlainParts(parts)
    ensures ReplaceChar(Join(parts, "/"), '/', '\\') == Join(parts, "\\")
  {
    if |parts| == 1 {
      ReplaceAbsent(parts[0], '/', '\\');
    } else if |parts| > 1 {
      ReplaceJoinPlain(parts[1..]);
      ReplaceJoinStep(parts[0], Join(parts[1..], "/"), Join(parts[1..], "\\"));
    }
  }

  /** The same with a leading `/`, which becomes a leading `\`. */
  lemma ReplaceJoin(parts: seq<string>)
    requires PlainParts(parts)
    ensures ReplaceChar("/" + Join(parts, "/"), '/', '\\') == "\\" + Join(parts, "\\")
  {
    ReplaceJoinPlain(parts);
    ReplaceAppend("/", Join(parts, "/"), '/', '\\');
    assert ReplaceChar("/", '/', '\\') == "\\";
  }

  /** The concrete case: `/home` comes back as `\home`. */
  lemma HomePathMangled(home: string)
    requires home == "/home"
    ensures ToWslPathAsWritten(home) == "\\home" != home
  {
    var parts := ["home"];
    assert Join(parts, "/") == "home" && Join(parts, "\\") == "home";
    assert PlainParts(parts) && home == "/" + Join(parts, "/");
    PosixPathMangled(parts);
    assert ToWslPathAsWritten(home) == "\\" + Join(parts, "\\");
  }

  // ---------------------------------------------------------------------
  // The dispatch of main
  // ---------------------------------------------------------------------

  /** The shell line that installs Python and Git inside the distro when `python3` is missing. */
  const SetupCommand: string := "command -v python3 >/dev/null 2>&1 || (sudo apt-get update && sudo apt-get install -y python3 python3-pip git)"

  /** The `action` argument; argparse rejects anything else. */
  datatype Action = Start | Resume | Suspend

  function ParseAction(s: string): (r: Option<Action>)
    ensures r.Some? <==> s == "start" || s == "resume" || s == "suspend"
  {
    if s == "start" then Some(Start)
    else if s == "resume" then Some(Resume)
    else if s == "suspend" then Some(Suspend)
    else None
  }

  /**
   * The commands `main` runs, in order: `start` and `resume` set up the
   * distro and open a shell in the repository; `suspend` terminates the
   * distro.
   */
  function Plan(action: Action, distro: string, repo: string): (r: seq<seq<string>>)
    requires !IsUnc(repo)
    ensures action == Suspend ==> r == [["wsl", "--terminate", distro]]
    ensures action != Suspend ==> |r| == 2 && |r[0]| == |r[1]| == 6 && r[0][..3] == r[1][..3] == ["wsl", "-d", distro]
    ensures action != Suspend ==> r[0][3..5] == r[1][3..5] == ["bash", "-lc"]
    ensures action != Suspend ==> r[0][5] == SetupCommand && r[1][5] == "cd '" + ToWslPath(repo) + "' && exec bash"
  {
    match action
    case Start | Resume =>
      [["wsl", "-d", distro, "bash", "-lc", SetupCommand],
       ["wsl", "-d", distro, "bash", "-lc", "cd '" + ToWslPath(repo) + "' && exec bash"]]
    case Suspend =>
      [["wsl", "--terminate", distro]]
  }

  /** `start` and `resume` take the same branch. */
  lemma StartIsResume(distro: string, repo: string)
    requires !IsUnc(repo)
    ensures Plan(Start, distro, repo) == Plan(Resume, distro, repo)
  {
  }

  /** Only `suspend` runs `wsl --terminate`; the start commands all run `wsl -d <distro>`. */
  lemma OnlySuspendTerminates(action: Action, distro: string, repo: string)
    requires !IsUnc(repo)
    ensures (exists c :: c in Plan(action, distro, repo) && |c| >= 2 && c[1] == "--terminate") <==> action == Suspend
  {
    var r := Plan(action, distro, repo);
    if action != Suspend {
      forall c | c in r ensures c[1] == "-d" {
        assert c == r[0] || c == r[1];
      }
    } else {
      assert r[0] in r;
    }
  }
}
